=== FILE: README.md ===
# test-client, modelled in Dafny

test-client is a small HTTP testing library for Node. A test builds a
request against an application, sends it, and makes assertions about the
response it captures. This project models the two revisions of its core
side by side.

- **The assertion engine.** `Response#assert` in the newer revision
  (`src/response.js`) and `Response#expect` in the older one
  (`response.js`). Each is a decision procedure over a captured response
  (status, headers, body) and an argument list. The shape of the arguments
  selects a status check, a body check, both, or a header check. A check
  compares by equality or by a regular expression, and a failure carries a
  message built by an `inspect` template tag.
- **The request builder.** `src/request.js` and `request.js`: the header
  object that `set`, `type` and `accept` accumulate, and the pure parts of
  `send`:
  - the body encoding;
  - the cookie overwrite;
  - the choice between JSON and text decoding of the reply;
  - the construction of the captured response;
  - the order of the server's start, the one request, and the server's close.

Host functions the code calls but does not define are parameters of the
operations that use them:

- `JSON.parse` is a `Parser`, and so is the reply's `json()`;
- `JSON.stringify` is a `Stringify`;
- `mimeTypes.contentType` is a `ContentType`;
- `RegExp#test` on a caller's pattern is a `Matcher`;
- the server start and the HTTP exchange are `listen` and `fetch`.

The fixed `/json/` test is modelled exactly, as a substring search
(`JsValue.LiteralMatch`). The tests' patterns, made of plain letters, are
modelled the same way.

Files and modules:

| file | module | models |
|---|---|---|
| results.dfy | `Results` | `Option`, `Result`, the verdict of one assertion helper, the outcome of one call |
| js_value.dfy | `JsValue` | the JavaScript values handled: `String(v)`, decimal notation, `toLowerCase`, `/json/`, `deepStrictEqual` |
| inspect.dfy | `Inspect` | `util.inspect` on those values and the `inspect` template tag |
| messages.dfy | `Messages` | the comparisons and failure messages both engines share |
| fetch_headers.dfy | `FetchHeaders` | the fetch implementation's `Headers` collection |
| src_response.dfy | `SrcResponse` | `src/response.js` |
| root_response.dfy | `RootResponse` | `response.js` |
| root_examples.dfy | `RootExamples` | the assertion tests of `test/index.js`, as lemmas about `RootResponse` |
| header_bag.dfy | `HeaderBag` | the request's header object and `Object.assign` |
| dispatch.dfy | `Dispatch` | what both `send` implementations do around the exchange |
| src_request.dfy | `SrcRequest` | `src/request.js` |
| root_request.dfy | `RootRequest` | `request.js` |
| revisions.dfy | `Revisions` | where the two revisions agree and where they part |

Behaviours of the code that a reader might not expect:

- **The `/json/` test is case-sensitive.** It has no flag, so
  `application/JSON` is read as text (`Dispatch.DecodeBodyExamples`,
  `RootResponse.ConstructDecodingIsCaseSensitive`).
- **Sending a structured body overwrites the caller's `content-type`.**
  `send` sets it whatever the caller set before (`Dispatch.PrepareOverwrites`,
  `SrcRequest.SendOverwritesContentType`).
- **Request header keys are case-sensitive.** They are stored as exact
  property names, so `Content-Type` and `content-type` are two headers
  (`SrcRequest.KeysAreCaseSensitive`).
- **An absent header reads as `null` in the newer revision.** A literal
  check against `null` therefore passes (`SrcResponse.AbsentHeaderIsNull`),
  and a pattern check tests `null` where the older revision tests
  `undefined` (`Revisions.AbsentHeaderPatternChecksDiffer`).
- **The older `expect` accepts any number of arguments.** With no
  arguments it does nothing, and it ignores arguments past the second
  (`RootResponse.ExtraArgumentsIgnored`, `Revisions.NoArgumentsDiffer`).
- **The older revision decodes a JSON reply twice.** See "## Findings".

## Model

| member | source | states |
|---|---|---|
| Results.Require | src/response.js:50 | `assert.ok(cond, message)` holds exactly when `cond` does, and otherwise fails with that message |
| Results.AndThen | src/response.js:36-37 | two helpers in sequence hold iff both hold; when the first fails its failure is the result and the second is not consulted |
| Results.Finish | src/response.js:31 | a call that raises nothing returns the response itself; a helper's failure or `TypeError` becomes the call's |
| JsValue.NatDigits | src/response.js:12 | the decimal notation of a natural number is a non-empty run of digits |
| JsValue.NatDigitsRoundTrip | src/response.js:12 | reading the decimal notation of a natural number back gives the number |
| JsValue.DecimalRoundTrip | src/response.js:12 | the notation of every integer, sign included, is non-empty and reads back to the integer, so distinct statuses are written differently |
| JsValue.Lower | src/response.js:63 | `toLowerCase` keeps the length and lowers each letter in place |
| JsValue.LowerIdempotent | src/response.js:63 | lower-casing an already lower-cased key changes nothing |
| JsValue.MentionsJsonMeansContains | response.js:22 | `/json/.test(v)` holds iff `String(v)` contains `json` |
| JsValue.DeepStrictEqualReflexive | src/response.js:53 | every well-formed value is deep-strict-equal to itself |
| JsValue.DeepStrictEqualSymmetric | src/response.js:53 | deep-strict equality does not depend on which side is the expected value |
| JsValue.DeepStrictEqualOnScalars | src/response.js:53 | on primitives and patterns deep-strict equality is plain equality |
| JsValue.KeyOrderIrrelevant | src/response.js:53 | two objects with the same properties in different orders are deep-strict-equal although they are different values |
| Inspect.EscapeOrdinary | src/response.js:12 | escaping leaves a string without quotes or backslashes unchanged |
| Inspect.QuoteOrdinary | src/response.js:12 | `util.inspect` of such a string is the string in single quotes |
| Inspect.UnescapeEscape | src/response.js:12 | escaping a string can be undone, for every string |
| Inspect.UnquoteQuote | src/response.js:12 | the quoted rendering of a string determines the string |
| Inspect.RenderScalarExamples | src/response.js:12 | strings, numbers (negative included), `null`, `undefined` and `/json/` render as `util.inspect` writes them |
| Inspect.RenderObjectExample | src/response.js:12 | `{x: 2}` renders as `{ x: 2 }` |
| Inspect.RenderQuotedKeyExample | src/response.js:12 | an object key that is not an identifier is rendered quoted |
| Inspect.RenderArrayExample | src/response.js:12 | an array renders as `[ 1, 'b' ]` |
| Inspect.Tag | src/response.js:8-15 | the tag's loop yields the literal parts interleaved with the rendered values, ending with the last literal part |
| Inspect.TemplateOne | response.js:7-15 | a template with one value is the first part, the rendered value, then the second part |
| Inspect.TemplateTwo | response.js:7-15 | the same for two values |
| Inspect.TemplateThree | response.js:7-15 | the same for three values |
| Messages.StatusMessageText | src/response.js:58 | the status message is `expected <n>, got <m>` in decimal |
| Messages.BodyMessageText | src/response.js:49-52 | the body messages are `expected <body> to match <pattern>` and `expected <expected>, got <body>` |
| Messages.HeaderMessageText | src/response.js:65-68 | the header messages name the quoted key with the actual value and the pattern, or with the expected and actual values |
| Messages.MissingHeaderMessageText | response.js:63 | the missing-header message is `expected '<key>' header` |
| Messages.QuoteInjective | response.js:63 | distinct keys are quoted differently, so the message names the key that failed |
| FetchHeaders.Append | src/response.js:20 | appending adds exactly the lower-cased name; a new name holds the appended value, a repeated name holds its old value joined to the new one by `, `, and other names keep their values |
| FetchHeaders.FromPairs | src/response.js:20 | a collection built from a plain object has exactly the lower-cased names of its properties |
| FetchHeaders.Get | src/response.js:63 | `get` finds a value iff the lower-cased name is stored, and the value it finds is the one stored under that name |
| FetchHeaders.GetIgnoresCase | src/response.js:63 | two names equal up to letter case read the same value |
| FetchHeaders.FromPairsFindsEveryPair | src/response.js:20 | with names distinct up to case, every property of the initialiser is found under any spelling of its name, with its own value |
| SrcResponse.Construct | src/response.js:18-22 | the status defaults to 200; the body is kept; a collection is kept, and a plain object becomes the collection built by appending its properties in order, so it has their lower-cased names with their values |
| SrcResponse.Classify | src/response.js:24-45 | the argument list has a call shape iff it has one or two arguments, and a leading number makes it a status check |
| SrcResponse.ClassifyRoundTrip | src/response.js:24-45 | each unambiguous call shape is recognised from its arguments, and each accepted list is the argument list of its shape |
| SrcResponse.Assert | src/response.js:24-70 | a usage error iff the arity is not 1 or 2; the status, body, status-then-body and header checks with their messages; a pass returns the response; a non-string header key raises `TypeError` |
| SrcResponse.BodyCheckIgnoresStatusAndHeaders | src/response.js:28-30 | a body-only check reaches the same verdict on any two responses with the same body |
| SrcResponse.StatusMismatchHidesBody | src/response.js:34-37 | on a status mismatch the status message is raised whatever body is expected |
| SrcResponse.HeaderKeyCaseIrrelevant | src/response.js:63 | header keys equal up to letter case pass or fail together |
| SrcResponse.AbsentHeaderIsNull | src/response.js:62-69 | an absent header passes a literal check against `null` only, and otherwise fails with the ordinary message ending `got null` |
| SrcResponse.PatternBodyCheck | src/response.js:47-50 | a pattern body check passes iff the pattern matches the stringified body, and otherwise names the rendered body and the pattern |
| SrcResponse.DefaultStatusExample | src/response.js:18-19 | with no status given, `assert(200)` passes and `assert(404)` fails with `expected 404, got 200` |
| SrcResponse.ArityExamples | src/response.js:44 | zero and three arguments raise `Response#assert accepts one or two arguments` |
| RootResponse.Property | response.js:58 | reading a stored header's property gives its stored string, and any other name reads as `undefined` |
| RootResponse.Construct | response.js:19-25 | the body is replaced by its JSON parse iff the `content-type` property contains `json`, and a parse error propagates; otherwise everything is kept |
| RootResponse.Expect | response.js:27-66 | never a usage error; no arguments passes; a leading number checks the status, then the body if given; otherwise a header check on two or more arguments, a body check on one; an absent header fails a literal check with the missing-header message first |
| RootResponse.ExtraArgumentsIgnored | response.js:27-40 | arguments past the second never change the outcome |
| RootResponse.StoredKeysNotNormalised | response.js:58 | a header stored as `Accept` is missing to every query, because only the query is lower-cased |
| RootResponse.BodyCheckIgnoresStatusAndHeaders | response.js:35-37 | a single non-numeric argument checks the body alone |
| RootResponse.ConstructDecodingIsCaseSensitive | response.js:22-24 | a `Content-Type` property and an `application/JSON` value both leave the body undecoded |
| RootExamples.FixtureKeepsBody | response.js:22-24 | a fixture without a `content-type` keeps its body whatever the parser does |
| RootExamples.ExpectStatusExamples | test/index.js:8-25 | `expect(200)` passes on status 200 and `expect(404)` fails with `expected 404, got 200` |
| RootExamples.ExpectMissingHeaderExample | test/index.js:27-35 | an absent `accept` fails with `expected 'accept' header` |
| RootExamples.ExpectMismatchedHeaderExample | test/index.js:37-45 | a different `accept` fails with `expected 'accept' of 'application/json', got 'text/html'` |
| RootExamples.ExpectMatchingHeaderExamples | test/index.js:47-63 | a matching header passes under `accept` and under `Accept` |
| RootExamples.ExpectBodyExamples | test/index.js:65-82 | a matching body passes and a mismatch fails with `expected 'y', got 'x'` |
| RootExamples.ExpectStatusAndBodyMismatchedStatus | test/index.js:84-92 | `expect(404, 'y')` fails on the status first |
| RootExamples.ExpectStatusAndBodyMismatchedBody | test/index.js:94-102 | `expect(200, 'y')` fails on the body |
| RootExamples.ExpectPatternBodyExamples | test/index.js:104-140 | `/x/` matches the body `'x'`, alone or after the status, and `/y/` fails with `expected 'x' to match /y/` |
| RootExamples.ExpectPatternHeaderExamples | test/index.js:142-159 | `/json/` matches `application/json`, and `text/html` fails with `expected 'accept' of 'text/html' to match /json/` |
| HeaderBag.Put | src/request.js:56 | `headers[key] = value` writes the key's property name and nothing else |
| HeaderBag.OwnEntries | src/request.js:62 | the properties `Object.assign` copies: an object's members in order, an array's items and a string's characters under their indices, nothing from other values |
| HeaderBag.AssignKeys | src/request.js:62 | after a merge a key is present iff it was present before or the source has it |
| HeaderBag.AssignLastWins | src/request.js:62 | the last entry with a key decides its value |
| HeaderBag.AssignKeeps | src/request.js:62 | a key the source does not have keeps its value |
| HeaderBag.AssignObject | src/request.js:60-64 | merging an object sets each of its properties and keeps every other header |
| HeaderBag.AssignNothing | src/request.js:62 | merging `null`, `undefined`, a boolean, a number or a pattern changes nothing |
| Dispatch.NewRequest | src/request.js:9-14 | a new request has its method and path and no headers |
| Dispatch.Prepare | src/request.js:17-22 | a body that is not `null`, `undefined`, a string or a stream is JSON-encoded and forces the json content type; then `cookie` is set to the client's cookie and nothing else changes |
| Dispatch.PrepareOverwrites | src/request.js:17-22 | an encoded body's content type replaces whatever the caller set, and the cookie header is always written |
| Dispatch.PrepareLeavesPlainBodies | src/request.js:17-22 | `null`, `undefined`, string and stream bodies are sent unchanged and only the cookie header changes |
| Dispatch.Lookup | src/request.js:37 | `headers.get(name)` is the stored value under the lower-cased name, or `null` |
| Dispatch.DecodeBody | src/request.js:39-41 | the reply is parsed as JSON iff its content type contains `json`, and is text otherwise |
| Dispatch.DecodeBodyExamples | src/request.js:39-41 | `application/json` is parsed; `application/JSON` and an absent content type are text |
| Dispatch.Send | src/request.js:16-51 | a server that fails to start sends nothing; otherwise one request goes to `http://localhost:<port><path>` with the prepared headers and body, then the server closes; the cookie and the result come from the reply |
| Dispatch.SendClosesAfterDispatch | src/request.js:30-50 | on every path, a request that was sent is followed by the server closing, and at most one request is sent |
| Dispatch.SendSucceedsOnlyAfterExchange | src/request.js:24-47 | a response is produced only after the server started and the exchange succeeded |
| SrcRequest.Set | src/request.js:53-67 | two arguments set exactly one key; one argument merges its properties; any other arity raises `Request#set accepts one or two arguments` |
| SrcRequest.Type | src/request.js:74-77 | `type(alias)` sets only `content-type` to the alias's content type |
| SrcRequest.Accept | src/request.js:69-72 | `accept(alias)` sets only `accept` to the alias's content type |
| SrcRequest.Capture | src/request.js:37-47 | the value assigned to the client's cookie is the reply's `set-cookie` or `null`; the response has the reply's status and header collection and the body decoded once, or the parse error |
| SrcRequest.Send | src/request.js:16-51 | the sent request carries the client's cookie and, for an encoded body, the json content type; a result comes from a successful exchange; the server is closed after the request |
| SrcRequest.KeysAreCaseSensitive | src/request.js:56 | `Content-Type` and `content-type` are separate headers |
| SrcRequest.SetLastWriteWins | src/request.js:54-58 | setting a key twice keeps the later value |
| SrcRequest.SetObjectMerges | src/request.js:60-64 | `set(object)` overwrites the object's keys and keeps the rest |
| SrcRequest.SetArityExamples | src/request.js:66 | zero and three arguments raise the usage error |
| SrcRequest.SendOverwritesContentType | src/request.js:17-19 | a content type set with `type` does not survive sending an object |
| RootRequest.Set | request.js:46-55 | two arguments set exactly one key, one argument merges, any other arity leaves the request unchanged |
| RootRequest.Type | request.js:62-65 | `type(alias)` sets only `content-type` |
| RootRequest.Accept | request.js:57-60 | `accept(alias)` sets only `accept` |
| RootRequest.CaptureAsWritten | request.js:34-40 | as written, a text reply is kept as text; a JSON reply yields a response exactly when the raw text parses and the parsed value, converted back to a string, parses again, and that response holds the second parse; a failed first parse is the error |
| RootRequest.Capture | request.js:34-40 | decoded once, the response has the reply's status and headers and the body decoded by the content type; otherwise the error is the decoding's error |
| RootRequest.SameContentTypeView | response.js:22 | the plain-object view and the collection agree on whether the content type mentions `json` |
| RootRequest.Send | request.js:16-44 | the sent request carries the client's cookie and, for an encoded body, the json content type; a result comes only from a successful exchange and is the as-written capture of its reply, decoded by `send` and again by the constructor; the server is closed after the request |
| RootRequest.SendDecodedOnce | request.js:16-44 | the same send with the reply decoded once, by the constructor alone |
| RootRequest.SendsAgreeOnText | request.js:36-40 | when no reply mentions `json` in its content type, the send as written and the send decoded once settle identically |
| RootRequest.CapturesAgreeOnText | request.js:36-40 | on a reply that is not JSON, the capture as written and the corrected one agree |
| RootRequest.DoubleDecodeRejectsObjects | request.js:36-40 | a JSON object reply is a parse error as written and the object when decoded once |
| RootRequest.SetBadArityIsNoOp | request.js:46-55 | zero or three arguments leave the request as it was |
| Revisions.StatusAndBodyChecksAgree | src/response.js:24-45 | status and body checks reach the same verdict in both revisions |
| Revisions.PresentHeaderChecksAgree | src/response.js:62-69 | header checks of a present header reach the same verdict in both revisions |
| Revisions.AbsentHeaderChecksDiffer | response.js:57-66 | a literal check of an absent header compares with `null` in the newer revision and reports the header missing in the older one |
| Revisions.AbsentHeaderPatternChecksDiffer | response.js:57-61 | a pattern check of an absent header tests `null` in the newer revision and `undefined` in the older one, so `/undefined/` fails in the newer and passes in the older |
| Revisions.AbsentHeaderMessagesDiffer | response.js:63-64 | the two messages for an absent header are different texts |
| Revisions.NoArgumentsDiffer | response.js:27-40 | no arguments is a usage error in the newer revision and a pass in the older one |
| Revisions.ThreeArgumentsDiffer | src/response.js:44 | three arguments are a usage error in the newer revision and a two-argument check in the older one |
| Revisions.SetAgrees | request.js:46-55 | both `set`s agree on one or two arguments; otherwise the newer raises and the older does nothing |
| Revisions.CapturesAgree | src/request.js:39-47 | the newer capture and the older one, decoded once, accept the same replies with the same cookie, status, body and headers |

## Left out

- Listening, `server.address()`, `fetch` and `server.close()` are input/output. They appear only as the parameters `listen` and `fetch` and as the event trace `Dispatch.Send` records. The older revision's `client.server()` is taken as `listen` too.
- `src/client.js` and `index.js` are not part of this model. The cookie jar, the verb methods and the client wrapper belong there. The client's cookie is an opaque value given to `send` and returned by it.
- `JSON.parse`, `JSON.stringify` and `mimeTypes.contentType` are parameters. They are host functions whose results are not computed here.
- `RegExp#test` on a caller's pattern is a `Matcher` parameter. It is a pure function, so the state a global (`g`) pattern keeps between calls is not modelled. Only plain patterns are given their exact meaning.
- `util.inspect` is modelled on one line for the values of `JsValue`. Its depth limit, line breaking, quote-style switching for strings containing `'`, escapes of control characters, and rendering of other objects are not modelled.
- `toLowerCase` is modelled on ASCII letters only, because Unicode case mapping is out of reach.
- Numbers are integers. Fractions, `NaN`, `-0` and `Infinity` are floating point and are not modelled.
- JsValue.Decimal: `Num` is an unbounded integer. A JavaScript number is an exact integer only up to 2^53, and `String` and `util.inspect` switch to exponent notation from 1e21 (`1e+21`), which `Decimal` does not model. `Inspect.Render`, `JsValue.ToString` and every status or body message therefore agree with the code only for integers below 1e21 in magnitude.
- `deepStrictEqual` does not model prototypes, symbol keys or object identity beyond the values of `JsValue`. Strict equality of a header value is equality of values. That is exact for the strings and the `null` a `Headers` lookup returns. It is also exact for the strings and `undefined` that the own-property reads modelled by `RootResponse.Property` return.
- Array holes and integer-like keys, which `Object.assign` visits first, are not modelled. The result of a merge does not depend on that order when keys are distinct.
- The `Headers` collection's validation of names and values, and its `set-cookie` special cases, are not modelled.
- The asynchronous order is not modelled. `send` is one function from its inputs to its settlement.
- Dispatch.DecodeBody: takes the reply's `response.json()` to be the same `Parser` as `JSON.parse` applied to the body text, rejecting with the parser's own message. A fetch implementation may wrap that error in its own (`invalid json response body at <url> reason: <message>`), so the rejection messages that `SrcRequest.Capture`, `RootRequest.Capture` and `RootRequest.CaptureAsWritten` state are the parser's message, not such a wrapped one; which inputs are rejected is unaffected.
- RootRequest.CaptureAsWritten: assumes that the older response sees the reply's header collection as a plain object whose properties are the collection's lower-cased names and their values. The older `Response` reads its headers by property (response.js:22, response.js:58), and test/index.js:199 reads a captured response's header the same way. If the fetch implementation's `Headers` object does not expose its headers as properties, those reads give `undefined` and there is no second parse.
- RootRequest.Capture: makes the same assumption about the header collection as `RootRequest.CaptureAsWritten`.
- RootResponse.Property: models a header object's own properties only, with string values. A name the object inherits, such as `constructor`, reads as `undefined` here, although JavaScript finds the inherited value. A header object whose values are not strings is not modelled either.
- Nothing is derived from the tests at test/index.js:161-188. They expect a JSON body to be decoded without a JSON content type, and a parse error to surface when `expect` is called. Neither revision does either.
- Dispatch.SendClosesAfterDispatch: the server's close is recorded as an event after the single request. What the close does to open connections is not modelled.

## Findings

| source | as written | input that shows it | evidently intended | confidence | as-written member | corrected member |
|---|---|---|---|---|---|---|
| request.js:36-40 | `send` decodes a JSON reply, then hands the decoded value to the older `Response` constructor. The constructor parses the body again whenever its header object shows a json content type (response.js:22-24). | A reply with `content-type: application/json` and body `{"x":1}`, with the header object read as a plain object (as test/index.js:199 reads it). The first parse gives an object; the second parses `[object Object]` and raises. | The body is decoded once, from the raw text. | low to medium, not executed; it holds only if the reply's `Headers` object exposes each header as a property, which test/index.js:199 assumes and the fetch implementation may not do | RootRequest.CaptureAsWritten | RootRequest.Capture |

`RootRequest.DoubleDecodeRejectsObjects` exhibits the input.
`RootRequest.CapturesAgreeOnText` and `Revisions.CapturesAgree` prove that the corrected capture behaves like the newer revision. `RootRequest.Send` models the send as written. `RootRequest.SendDecodedOnce` is the corrected send. `RootRequest.SendsAgreeOnText` proves that the two agree whenever no reply is JSON.

=== FILE: dispatch.dfy ===
/** What `send` does around the exchange with the server, the same in both
    revisions (src/request.js:16-51, request.js:16-44): it encodes the body,
    overwrites the `cookie` header, starts the server, sends one request,
    remembers the reply's `set-cookie`, decodes the reply body as JSON or
    text, and closes the server. Starting the server and the HTTP exchange
    itself are parameters: `listen` is the port the server got or the error
    it raised, and `fetch` maps the outgoing request to a reply or an
    error. */
module Dispatch {
  import opened Results
  import opened JsValue
  import opened HeaderBag
  import FetchHeaders

  /** A request under construction: its HTTP method (`verb`), its path and
      its header object. */
  datatype Request = Request(verb: string, path: string, headers: Bag)

  /** `new Request(...)`: no headers yet. */
  function NewRequest(verb: string, path: string): (r: Request)
    ensures r.verb == verb && r.path == path && |r.headers| == 0
  {
    Request(verb, path, map[])
  }

  /** The argument of `send`: a readable stream, passed through untouched,
      or any other value. */
  datatype SendBody = Stream(handle: nat) | Plain(value: Value)

  /** `JSON.stringify` on a value that is neither `undefined` nor a string. */
  type Stringify = Value -> string

  /** `mimeTypes.contentType(alias)`: a full content type, or `false` for an
      unknown alias. */
  type ContentType = Value -> Value

  /** `body != null && !(body instanceof Stream) && typeof body !== 'string'`. */
  predicate NeedsJsonEncoding(b: SendBody)
  {
    b.Plain? && !b.value.Null? && !b.value.Undefined? && !b.value.Str?
  }

  /** The header keys `send` writes before dispatch. */
  const ContentTypeKey: string := "content-type"
  const CookieKey: string := "cookie"

  /** The request after the steps that run before the server starts. */
  datatype Prepared = Prepared(headers: Bag, body: SendBody)

  /** `headers[key] = value` for every key but `key`, and nothing else. */
  predicate SetsOnly(before: Bag, after: Bag, key: string, value: Value)
  {
    && after.Keys == before.Keys + {key}
    && after[key] == value
    && forall k :: k in before && k != key ==> after[k] == before[k]
  }

  /** A JSON-encodable body becomes its JSON text and `content-type` is set
      to the content type of `json`, replacing whatever the caller set under
      that exact key; then `cookie` is set to the client's cookie, whatever
      it is. */
  function Prepare(ct: ContentType, stringify: Stringify, headers: Bag, body: SendBody, cookie: Value): (p: Prepared)
    ensures NeedsJsonEncoding(body) ==> p.body == Plain(Str(stringify(body.value)))
    ensures !NeedsJsonEncoding(body) ==> p.body == body
    ensures NeedsJsonEncoding(body) ==>
      SetsOnly(headers[ContentTypeKey := ct(Str("json"))], p.headers, CookieKey, cookie)
    ensures !NeedsJsonEncoding(body) ==> SetsOnly(headers, p.headers, CookieKey, cookie)
  {
    var (hs, b) :=
      if NeedsJsonEncoding(body) then (Put(headers, Str(ContentTypeKey), ct(Str("json"))), Plain(Str(stringify(body.value))))
      else (headers, body);
    Prepared(Put(hs, Str(CookieKey), cookie), b)
  }

  /** Whatever the caller wrote, an encoded body is sent with the json
      content type, and the cookie header always carries the client's
      cookie. */
  lemma PrepareOverwrites(ct: ContentType, stringify: Stringify, headers: Bag, v: Value, cookie: Value)
    requires !v.Null? && !v.Undefined? && !v.Str?
    ensures var p := Prepare(ct, stringify, headers, Plain(v), cookie);
      && p.headers[ContentTypeKey] == ct(Str("json"))
      && p.headers[CookieKey] == cookie
      && p.headers.Keys == headers.Keys + {ContentTypeKey, CookieKey}
  {
  }

  /** `null`, `undefined`, strings and streams are sent as they are, and
      only the cookie header changes. */
  lemma PrepareLeavesPlainBodies(ct: ContentType, stringify: Stringify, headers: Bag, body: SendBody, cookie: Value)
    requires body.Stream? || body.value.Null? || body.value.Undefined? || body.value.Str?
    ensures var p := Prepare(ct, stringify, headers, body, cookie);
      && p.body == body
      && (forall k :: k in headers && k != CookieKey ==> k in p.headers && p.headers[k] == headers[k])
      && p.headers.Keys == headers.Keys + {CookieKey}
  {
  }

  // ---------------------------------------------------------------------
  // The exchange

  /** `http://localhost:${port}${this.path}`. */
  function Url(port: nat, path: string): string
  {
    "http://localhost:" + Decimal(port) + path
  }

  /** The request `fetch` is given. */
  datatype Outbound = Outbound(url: string, verb: string, headers: Bag, body: SendBody)

  /** What `fetch` resolves to: the status, the header collection and the
      body text. */
  datatype Reply = Reply(status: int, headers: FetchHeaders.Collection, raw: string)

  /** `response.headers.get(name)`: the value, or `null`. */
  function Lookup(h: FetchHeaders.Collection, name: string): (v: Value)
    ensures v.Str? || v.Null?
    ensures v.Null? <==> Lower(name) !in h.entries
    ensures v.Str? ==> v.s == h.entries[Lower(name)]
  {
    match FetchHeaders.Get(h, name)
    case Some(s) => Str(s)
    case None => Null
  }

  /** `/json/.test(contentType) ? await response.json() : await
      response.text()`: the body is parsed iff the content type mentions
      `json` in lower case; a parse error rejects. `response.json()` is
      taken as the parser applied to the body text, with the parser's own
      error message. An absent content type reads as `null`, which does
      not mention it. */
  function DecodeBody(parse: Parser, contentType: Value, raw: string): (r: Result<Value>)
    ensures Contains(ToString(contentType), "json") ==> r == parse(raw)
    ensures !Contains(ToString(contentType), "json") ==> r == Ok(Str(raw))
  {
    MentionsJsonMeansContains(contentType);
    if MentionsJson(contentType) then parse(raw) else Ok(Str(raw))
  }

  /** The test is case-sensitive, and a reply without a content type is
      read as text. */
  lemma DecodeBodyExamples(parse: Parser, raw: string)
    ensures DecodeBody(parse, Str("application/json"), raw) == parse(raw)
    ensures DecodeBody(parse, Str("application/JSON"), raw) == Ok(Str(raw))
    ensures DecodeBody(parse, Null, raw) == Ok(Str(raw))
  {
    ApplicationJsonMentionsJson();
    WithoutJson();
  }

  /** One step `send` takes that is visible from outside. */
  datatype Event = Listening(port: nat) | Dispatched(request: Outbound) | Closed

  /** What a revision makes of a reply: the client's new cookie and the
      captured response or the error raised while decoding. */
  datatype Captured<R> = Captured(cookie: Value, result: Result<R>)

  /** The end of `send`: the request as `send` left it, the client's cookie,
      the response or error it settles with, and what happened. */
  datatype Settled<R> = Settled(request: Request, cookie: Value, result: Result<R>, trace: seq<Event>)

  /** Every dispatched request is followed by the server closing. */
  predicate ClosedAfterDispatch(trace: seq<Event>)
  {
    forall i :: 0 <= i < |trace| && trace[i].Dispatched? ==>
      exists j :: i < j < |trace| && trace[j] == Closed
  }

  /** `send(body)`. The server is closed in a `finally`, so it closes
      whether the exchange or the decoding fails; a server that never
      started is never closed. */
  function Send<R>(ct: ContentType, stringify: Stringify, req: Request, body: SendBody, cookie: Value,
                   listen: Result<nat>, fetch: Outbound -> Result<Reply>, capture: Reply -> Captured<R>): (s: Settled<R>)
    // The request keeps its method and path and is left prepared.
    ensures s.request.verb == req.verb && s.request.path == req.path
    ensures s.request.headers == Prepare(ct, stringify, req.headers, body, cookie).headers
    // A server that fails to start: nothing is sent.
    ensures listen.Err? ==> s == Settled(s.request, cookie, Err(listen.message), [])
    // Otherwise: one request to the server's port, then the server closes.
    ensures listen.Ok? ==>
      && |s.trace| == 3
      && s.trace[0] == Listening(listen.value)
      && s.trace[1].Dispatched?
      && s.trace[2] == Closed
      && s.trace[1].request.url == Url(listen.value, req.path)
      && s.trace[1].request.verb == req.verb
      && s.trace[1].request.headers == s.request.headers
      && s.trace[1].request.body == Prepare(ct, stringify, req.headers, body, cookie).body
    // The cookie and the result come from the reply, when there is one.
    ensures listen.Ok? && fetch(s.trace[1].request).Err? ==>
      s.cookie == cookie && s.result == Err(fetch(s.trace[1].request).message)
    ensures listen.Ok? && fetch(s.trace[1].request).Ok? ==>
      var c := capture(fetch(s.trace[1].request).value);
      s.cookie == c.cookie && s.result == c.result
  {
    var p := Prepare(ct, stringify, req.headers, body, cookie);
    var prepared := req.(headers := p.headers);
    match listen
    case Err(e) => Settled(prepared, cookie, Err(e), [])
    case Ok(port) =>
      var out := Outbound(Url(port, req.path), req.verb, p.headers, p.body);
      var trace := [Listening(port), Dispatched(out), Closed];
      match fetch(out)
      case Err(e) => Settled(prepared, cookie, Err(e), trace)
      case Ok(reply) =>
        var c := capture(reply);
        Settled(prepared, c.cookie, c.result, trace)
  }

  /** On every path, a request that was sent is followed by the server
      closing, and at most one request is sent. */
  lemma SendClosesAfterDispatch<R>(ct: ContentType, stringify: Stringify, req: Request, body: SendBody, cookie: Value,
                                   listen: Result<nat>, fetch: Outbound -> Result<Reply>, capture: Reply -> Captured<R>)
    ensures var s := Send(ct, stringify, req, body, cookie, listen, fetch, capture);
      && ClosedAfterDispatch(s.trace)
      && forall i, j :: 0 <= i < j < |s.trace| && s.trace[i].Dispatched? ==> !s.trace[j].Dispatched?
  {
    var s := Send(ct, stringify, req, body, cookie, listen, fetch, capture);
    if listen.Ok? {
      assert s.trace[2] == Closed;
    }
  }

  /** A response is produced only after the server started and the exchange
      succeeded. */
  lemma SendSucceedsOnlyAfterExchange<R>(ct: ContentType, stringify: Stringify, req: Request, body: SendBody, cookie: Value,
                                         listen: Result<nat>, fetch: Outbound -> Result<Reply>, capture: Reply -> Captured<R>)
    ensures var s := Send(ct, stringify, req, body, cookie, listen, fetch, capture);
      s.result.Ok? ==>
        && listen.Ok?
        && fetch(s.trace[1].request).Ok?
        && s.result == capture(fetch(s.trace[1].request).value).result
  {
  }
}

=== FILE: fetch_headers.dfy ===
/** The header collection of the newer revision's responses: a `Headers`
    object of the fetch implementation it uses. Names are stored
    lower-cased, lookups lower-case the queried name, and a name supplied
    twice keeps both values joined by `, `. */
module FetchHeaders {
  import opened Results
  import opened JsValue

  datatype Headers = Headers(entries: map<string, string>)

  /** Every stored name is already lower-case. */
  predicate Normalised(h: Headers)
  {
    forall k :: k in h.entries ==> Lower(k) == k
  }

  /** A `Headers` object as the fetch implementation maintains it. */
  type Collection = h: Headers | Normalised(h) witness Headers(map[])

  const Empty: Collection := Headers(map[])

  /** `headers.append(name, value)`. */
  function Append(h: Collection, name: string, value: string): (r: Collection)
    ensures r.entries.Keys == h.entries.Keys + {Lower(name)}
    ensures Lower(name) !in h.entries ==> r.entries[Lower(name)] == value
    ensures Lower(name) in h.entries ==> r.entries[Lower(name)] == h.entries[Lower(name)] + ", " + value
    ensures forall k :: k in h.entries && k != Lower(name) ==> r.entries[k] == h.entries[k]
  {
    var k := Lower(name);
    LowerIdempotent(name);
    Headers(h.entries[k := if k in h.entries then h.entries[k] + ", " + value else value])
  }

  /** `new Headers(init)` for a plain object whose properties are given in
      insertion order. */
  function FromPairs(ps: seq<(string, string)>): (h: Collection)
    ensures forall k :: k in h.entries <==> exists i :: 0 <= i < |ps| && Lower(ps[i].0) == k
    decreases |ps|
  {
    if |ps| == 0 then Empty
    else
      var h := FromPairs(ps[..|ps| - 1]);
      assert forall i :: 0 <= i < |ps| - 1 ==> ps[..|ps| - 1][i] == ps[i];
      Append(h, ps[|ps| - 1].0, ps[|ps| - 1].1)
  }

  /** `headers.get(name)`: the stored value, or `null` (here `None`) when
      the collection has no header of that name in any letter case. */
  function Get(h: Collection, name: string): (r: Option<string>)
    ensures r.Some? <==> Lower(name) in h.entries
    ensures r.Some? ==> r.value == h.entries[Lower(name)]
  {
    if Lower(name) in h.entries then Some(h.entries[Lower(name)]) else None
  }

  /** A lookup does not depend on the letter case of the queried name. */
  lemma GetIgnoresCase(h: Collection, a: string, b: string)
    requires Lower(a) == Lower(b)
    ensures Get(h, a) == Get(h, b)
  {
  }

  /** Property names that differ only in letter case are distinct in a
      plain object, so distinctness is about the lower-cased names. */
  predicate DistinctNames(ps: seq<(string, string)>)
  {
    forall i, j :: 0 <= i < j < |ps| ==> Lower(ps[i].0) != Lower(ps[j].0)
  }

  /** A lookup after `append` sees the appended value under its own name,
      when that name was new, and the old collection under every other
      name. */
  lemma GetAfterAppend(h: Collection, n: string, v: string, name: string)
    ensures Lower(name) != Lower(n) ==> Get(Append(h, n, v), name) == Get(h, name)
    ensures Lower(name) == Lower(n) && Lower(n) !in h.entries ==> Get(Append(h, n, v), name) == Some(v)
  {
  }

  /** When no two names coincide up to letter case, every property of the
      initialiser is found, under any spelling of its name, with its own
      value. */
  lemma {:induction false} FromPairsFindsEveryPair(ps: seq<(string, string)>, i: int, name: string)
    requires DistinctNames(ps)
    requires 0 <= i < |ps|
    requires Lower(name) == Lower(ps[i].0)
    ensures Get(FromPairs(ps), name) == Some(ps[i].1)
    decreases |ps|
  {
    var n := |ps| - 1;
    var init := ps[..n];
    var h := FromPairs(init);
    assert FromPairs(ps) == Append(h, ps[n].0, ps[n].1);
    if i < n {
      assert DistinctNames(init) by {
        forall a, b | 0 <= a < b < |init|
          ensures Lower(init[a].0) != Lower(init[b].0)
        {
          assert init[a] == ps[a] && init[b] == ps[b];
        }
      }
      assert init[i] == ps[i];
      FromPairsFindsEveryPair(init, i, name);
      GetAfterAppend(h, ps[n].0, ps[n].1, name);
    } else {
      assert Lower(name) !in h.entries by {
        forall j | 0 <= j < |init|
          ensures Lower(init[j].0) != Lower(name)
        {
          assert init[j] == ps[j];
        }
      }
      GetAfterAppend(h, ps[n].0, ps[n].1, name);
    }
  }
}

=== FILE: header_bag.dfy ===
/** The header object a request accumulates before it is sent
    (src/request.js:13, request.js:13): a plain object whose property names
    are used exactly as given, with no case folding. Writing a name again
    replaces its value. */
module HeaderBag {
  import opened JsValue

  type Bag = map<string, Value>

  /** One own enumerable property: its key and its value. */
  type Entry = (string, Value)

  /** `bag[key] = value`, with the key converted to a property name. */
  function Put(bag: Bag, key: Value, value: Value): (r: Bag)
    ensures ToString(key) in r && r[ToString(key)] == value
    ensures r.Keys == bag.Keys + {ToString(key)}
    ensures forall k :: k in bag && k != ToString(key) ==> r[k] == bag[k]
  {
    bag[ToString(key) := value]
  }

  /** The own enumerable properties `Object.assign` copies from a source, in
      order. `null` and `undefined` are skipped, and booleans, numbers and
      patterns have none. A string contributes its characters and an array
      its items, both under their decimal indices. */
  function OwnEntries(v: Value): (es: seq<Entry>)
    ensures v.Obj? ==> |es| == |v.members| && forall i :: 0 <= i < |es| ==> es[i] == (v.members[i].key, v.members[i].val)
    ensures v.Arr? ==> |es| == |v.items| && forall i :: 0 <= i < |es| ==> es[i] == (Decimal(i), v.items[i])
    ensures v.Str? ==> |es| == |v.s| && forall i :: 0 <= i < |es| ==> es[i] == (Decimal(i), Str([v.s[i]]))
    ensures !v.Obj? && !v.Arr? && !v.Str? ==> es == []
  {
    match v
    case Obj(ms) => seq(|ms|, i requires 0 <= i < |ms| => (ms[i].key, ms[i].val))
    case Arr(xs) => seq(|xs|, i requires 0 <= i < |xs| => (Decimal(i), xs[i]))
    case Str(s) => seq(|s|, i requires 0 <= i < |s| => (Decimal(i), Str([s[i]])))
    case _ => []
  }

  /** Some entry has the key `k`. */
  predicate HasKey(es: seq<Entry>, k: string)
  {
    exists i :: 0 <= i < |es| && es[i].0 == k
  }

  /** Entry `i` is the last one with its key. */
  predicate LastOfKey(es: seq<Entry>, i: int)
    requires 0 <= i < |es|
  {
    forall j :: i < j < |es| ==> es[j].0 != es[i].0
  }

  /** `Object.assign(bag, source)` on the source's entries: they are written
      one after another. */
  function Assign(bag: Bag, es: seq<Entry>): Bag
    decreases |es|
  {
    if |es| == 0 then bag
    else Assign(bag, es[..|es| - 1])[es[|es| - 1].0 := es[|es| - 1].1]
  }

  /** After the merge, a key is present iff it was already present or some
      entry has it. */
  lemma {:induction false} AssignKeys(bag: Bag, es: seq<Entry>, k: string)
    ensures k in Assign(bag, es) <==> k in bag || HasKey(es, k)
    decreases |es|
  {
    if |es| > 0 {
      var init := es[..|es| - 1];
      AssignKeys(bag, init, k);
      if HasKey(es, k) && k != es[|es| - 1].0 {
        var i :| 0 <= i < |es| && es[i].0 == k;
        assert init[i].0 == k;
      }
      if HasKey(init, k) {
        var i :| 0 <= i < |init| && init[i].0 == k;
        assert es[i].0 == k;
      }
    }
  }

  /** The last entry with a key decides its value. */
  lemma {:induction false} AssignLastWins(bag: Bag, es: seq<Entry>, i: int)
    requires 0 <= i < |es| && LastOfKey(es, i)
    ensures es[i].0 in Assign(bag, es) && Assign(bag, es)[es[i].0] == es[i].1
    decreases |es|
  {
    var init := es[..|es| - 1];
    if i < |es| - 1 {
      assert init[i] == es[i];
      assert LastOfKey(init, i);
      AssignLastWins(bag, init, i);
    }
  }

  /** A key no entry has keeps its value. */
  lemma {:induction false} AssignKeeps(bag: Bag, es: seq<Entry>, k: string)
    requires k in bag && !HasKey(es, k)
    ensures k in Assign(bag, es) && Assign(bag, es)[k] == bag[k]
    decreases |es|
  {
    if |es| > 0 {
      var init := es[..|es| - 1];
      assert es[|es| - 1].0 != k;
      assert forall i :: 0 <= i < |init| ==> init[i] == es[i];
      AssignKeeps(bag, init, k);
    }
  }

  /** Merging an object whose keys are distinct gives every one of its
      properties its own value and keeps every other header. */
  lemma AssignObject(bag: Bag, v: Value)
    requires v.Obj? && Wf(v)
    ensures forall i :: 0 <= i < |v.members| ==>
      v.members[i].key in Assign(bag, OwnEntries(v)) && Assign(bag, OwnEntries(v))[v.members[i].key] == v.members[i].val
    ensures forall k :: k in bag && k !in KeySet(v.members) ==>
      k in Assign(bag, OwnEntries(v)) && Assign(bag, OwnEntries(v))[k] == bag[k]
    ensures Assign(bag, OwnEntries(v)).Keys == bag.Keys + KeySet(v.members)
  {
    var es := OwnEntries(v);
    var ms := v.members;
    var r := Assign(bag, es);
    forall k
      ensures HasKey(es, k) <==> k in KeySet(ms)
    {
      if k in KeySet(ms) {
        var m :| m in ms && m.key == k;
        var i :| 0 <= i < |ms| && ms[i] == m;
        assert es[i].0 == k;
      }
    }
    forall i | 0 <= i < |ms|
      ensures ms[i].key in r && r[ms[i].key] == ms[i].val
    {
      assert LastOfKey(es, i);
      AssignLastWins(bag, es, i);
    }
    forall k | k in bag && k !in KeySet(ms)
      ensures k in r && r[k] == bag[k]
    {
      AssignKeeps(bag, es, k);
    }
    forall k
      ensures k in r <==> k in bag || k in KeySet(ms)
    {
      AssignKeys(bag, es, k);
    }
  }

  /** Assigning nothing, or a source without own properties, changes
      nothing. */
  lemma AssignNothing(bag: Bag, v: Value)
    requires v.Undefined? || v.Null? || v.Bool? || v.Num? || v.Regex?
    ensures Assign(bag, OwnEntries(v)) == bag
  {
    assert OwnEntries(v) == [];
  }
}

=== FILE: inspect.dfy ===
/** The `inspect` template tag both revisions build their assertion
    messages with (src/response.js:7-15, response.js:6-15): the literal
    parts of the template are kept and every interpolated value is rendered
    the way `util.inspect` renders it. The renderer covers the values of
    `JsValue` on one line: strings in single quotes, numbers in decimal,
    `null`, `undefined`, booleans, patterns as `/source/flags`, arrays as
    `[ a, b ]` and objects as `{ k: v }`. */
module Inspect {
  import opened Results
  import opened JsValue

  // ---------------------------------------------------------------------
  // Strings

  /** A quote or a backslash inside a rendered string is escaped. */
  function EscapeChar(c: char): string
  {
    if c == '\'' then "\\'" else if c == '\\' then "\\\\" else [c]
  }

  function Escape(s: string): string
    decreases |s|
  {
    if |s| == 0 then "" else EscapeChar(s[0]) + Escape(s[1..])
  }

  /** A string without quotes or backslashes is rendered as it is. */
  lemma {:induction false} EscapeOrdinary(s: string)
    requires '\'' !in s && '\\' !in s
    ensures Escape(s) == s
    decreases |s|
  {
    if |s| > 0 {
      assert forall c :: c in s[1..] ==> c in s;
      EscapeOrdinary(s[1..]);
    }
  }

  /** `util.inspect` of a string: `'x'`. */
  function Quote(s: string): string
  {
    "'" + Escape(s) + "'"
  }

  lemma QuoteOrdinary(s: string)
    requires '\'' !in s && '\\' !in s
    ensures Quote(s) == "'" + s + "'"
  {
    EscapeOrdinary(s);
  }

  /** Reads the inside of a quoted string back; a bare quote or an unknown
      escape is not something `Escape` writes. */
  function Unescape(t: string): Option<string>
    decreases |t|
  {
    if |t| == 0 then Some("")
    else if t[0] == '\\' then
      if |t| >= 2 && (t[1] == '\\' || t[1] == '\'') then
        match Unescape(t[2..])
        case None => None
        case Some(rest) => Some([t[1]] + rest)
      else None
    else if t[0] == '\'' then None
    else
      match Unescape(t[1..])
      case None => None
      case Some(rest) => Some([t[0]] + rest)
  }

  function Unquote(t: string): Option<string>
  {
    if |t| >= 2 && t[0] == '\'' && t[|t| - 1] == '\'' then Unescape(t[1..|t| - 1]) else None
  }

  lemma {:induction false} UnescapeEscape(s: string)
    ensures Unescape(Escape(s)) == Some(s)
    decreases |s|
  {
    if |s| > 0 {
      UnescapeEscape(s[1..]);
      var e := EscapeChar(s[0]);
      var t := e + Escape(s[1..]);
      assert Escape(s) == t;
      if s[0] == '\'' || s[0] == '\\' {
        assert t[0] == '\\' && t[1] == s[0];
        assert t[2..] == Escape(s[1..]);
      } else {
        assert t[0] == s[0];
        assert t[1..] == Escape(s[1..]);
      }
      assert [s[0]] + s[1..] == s;
    }
  }

  /** A rendered string determines the string: distinct expected or actual
      strings never produce the same message fragment. */
  lemma UnquoteQuote(s: string)
    ensures Unquote(Quote(s)) == Some(s)
  {
    var q := Quote(s);
    assert q[1..|q| - 1] == Escape(s);
    UnescapeEscape(s);
  }

  // ---------------------------------------------------------------------
  // Values

  predicate IsIdentifierStart(c: char)
  {
    ('a' <= c <= 'z') || ('A' <= c <= 'Z') || c == '_'
  }

  /** Keys that `util.inspect` prints without quotes. */
  predicate IsIdentifier(k: string)
  {
    && |k| > 0
    && IsIdentifierStart(k[0])
    && forall i :: 1 <= i < |k| ==> IsIdentifierStart(k[i]) || IsDigit(k[i])
  }

  function RenderKey(k: string): string
  {
    if IsIdentifier(k) then k else Quote(k)
  }

  /** `util.inspect(v)` on one line. */
  function Render(v: Value): string
    decreases v
  {
    match v
    case Undefined => "undefined"
    case Null => "null"
    case Bool(b) => if b then "true" else "false"
    case Num(n) => Decimal(n)
    case Str(s) => Quote(s)
    case Regex(p) => PatternText(p)
    case Arr(xs) => if |xs| == 0 then "[]" else "[ " + RenderItems(xs) + " ]"
    case Obj(ms) => if |ms| == 0 then "{}" else "{ " + RenderMembers(ms) + " }"
  }

  /** The items of an array separated by `, `. */
  function RenderItems(xs: seq<Value>): string
    decreases xs
  {
    if |xs| == 0 then ""
    else if |xs| == 1 then Render(xs[0])
    else RenderItems(xs[..|xs| - 1]) + ", " + Render(xs[|xs| - 1])
  }

  /** The properties of an object as `k: v`, separated by `, `. */
  function RenderMembers(ms: seq<Member>): string
    decreases ms
  {
    if |ms| == 0 then ""
    else
      var last := RenderKey(ms[|ms| - 1].key) + ": " + Render(ms[|ms| - 1].val);
      if |ms| == 1 then last else RenderMembers(ms[..|ms| - 1]) + ", " + last
  }

  /** The renderings the message tests of test/index.js rely on. */
  lemma RenderScalarExamples()
    ensures Render(Str("x")) == "'x'"
    ensures Render(Num(404)) == "404"
    ensures Render(Num(-7)) == "-7"
    ensures Render(Null) == "null"
    ensures Render(Undefined) == "undefined"
    ensures Render(Regex(Pattern("json", ""))) == "/json/"
  {
    DecimalExamples();
    QuoteOrdinary("x");
  }

  lemma RenderObjectExample()
    ensures Render(Obj([Member("x", Num(2))])) == "{ x: 2 }"
  {
    assert IsIdentifier("x");
  }

  lemma RenderQuotedKeyExample()
    ensures Render(Obj([Member("a-b", Str("c"))])) == "{ 'a-b': 'c' }"
  {
    assert !IsIdentifier("a-b") by {
      assert !(IsIdentifierStart("a-b"[1]) || IsDigit("a-b"[1]));
    }
    QuoteOrdinary("a-b");
    QuoteOrdinary("c");
    assert RenderKey("a-b") == "'a-b'";
    assert Render(Str("c")) == "'c'";
    assert RenderMembers([Member("a-b", Str("c"))]) == "'a-b'" + ": " + "'c'";
  }

  lemma RenderArrayExample()
    ensures Render(Arr([Num(1), Str("b")])) == "[ 1, 'b' ]"
  {
    var xs := [Num(1), Str("b")];
    assert xs[..1] == [Num(1)];
  }

  // ---------------------------------------------------------------------
  // The template tag

  /** The text of a tagged template: the literal parts interleaved with the
      rendered values, `literals[0] + Render(values[0]) + literals[1] + …`. */
  function Template(literals: seq<string>, values: seq<Value>): string
    requires |literals| == |values| + 1
    decreases |values|
  {
    if |values| == 0 then literals[0]
    else literals[0] + Render(values[0]) + Template(literals[1..], values[1..])
  }

  /** The tag as the source writes it: one pass over the values that appends
      a literal part and a rendered value, then the last literal part. */
  method Tag(literals: seq<string>, values: seq<Value>) returns (result: string)
    requires |literals| == |values| + 1
    ensures result == Template(literals, values)
  {
    var i := 0;
    result := "";
    while i < |values|
      invariant 0 <= i <= |values|
      invariant result + Template(literals[i..], values[i..]) == Template(literals, values)
    {
      assert literals[i..][1..] == literals[i + 1..];
      assert values[i..][1..] == values[i + 1..];
      var rest := Template(literals[i + 1..], values[i + 1..]);
      assert Template(literals[i..], values[i..]) == literals[i] + Render(values[i]) + rest;
      Associative(result, literals[i] + Render(values[i]), rest);
      Associative(result, literals[i], Render(values[i]));
      result := result + literals[i] + Render(values[i]);
      i := i + 1;
    }
    assert literals[i..] == [literals[i]];
    result := result + literals[i];
  }

  /** Templates with two and three interpolations, the shapes every message
      of the assertion engine has. */
  lemma TemplateTwo(a: string, b: string, c: string, x: Value, y: Value)
    ensures Template([a, b, c], [x, y]) == a + Render(x) + b + Render(y) + c
  {
    assert [a, b, c][1..] == [b, c];
    assert [x, y][1..] == [y];
    TemplateOne(b, c, y);
  }

  lemma TemplateThree(a: string, b: string, c: string, d: string, x: Value, y: Value, z: Value)
    ensures Template([a, b, c, d], [x, y, z]) == a + Render(x) + b + Render(y) + c + Render(z) + d
  {
    assert [a, b, c, d][1..] == [b, c, d];
    assert [x, y, z][1..] == [y, z];
    TemplateTwo(b, c, d, y, z);
    var u, ry, rz := a + Render(x), Render(y), Render(z);
    Associative(u, b + ry + c + rz, d);
    Associative(u, b + ry + c, rz);
    Associative(u, b + ry, c);
    Associative(u, b, ry);
  }

  lemma Associative(p: string, q: string, r: string)
    ensures p + (q + r) == p + q + r
  {
  }

  lemma TemplateOne(a: string, b: string, x: Value)
    ensures Template([a, b], [x]) == a + Render(x) + b
  {
    assert [a, b][1..] == [b];
    assert [x][1..] == [];
  }
}

=== FILE: js_value.dfy ===
/** The subset of JavaScript values the assertion engine and the request
    builder handle: the primitives, arrays, plain objects and regular
    expressions, together with the conversions the source relies on
    (`String(v)`, `toLowerCase`, `RegExp#test` on a plain pattern and
    `assert.deepStrictEqual`). Numbers are integers. */
module JsValue {
  import Results

  /** A regular expression `/source/flags`. How an arbitrary pattern matches
      is not modelled: operations that test one take a `Matcher`. */
  datatype Pattern = Pattern(source: string, flags: string)

  /** `RegExp.prototype.test`, applied to a pattern and an already
      stringified subject. */
  type Matcher = (Pattern, string) -> bool

  /** `JSON.parse`: the value a JSON text denotes, or a syntax error. */
  type Parser = string -> Results.Result<Value>

  /** One own enumerable property of a plain object, in insertion order. */
  datatype Member = Member(key: string, val: Value)

  datatype Value =
    | Undefined
    | Null
    | Bool(b: bool)
    | Num(n: int)
    | Str(s: string)
    | Arr(items: seq<Value>)
    | Obj(members: seq<Member>)
    | Regex(pattern: Pattern)

  /** A JavaScript object never has two own properties with the same key. */
  predicate Wf(v: Value)
    decreases v
  {
    match v
    case Arr(xs) => forall i :: 0 <= i < |xs| ==> Wf(xs[i])
    case Obj(ms) =>
      && (forall i, j :: 0 <= i < j < |ms| ==> ms[i].key != ms[j].key)
      && (forall i :: 0 <= i < |ms| ==> Wf(ms[i].val))
    case _ => true
  }

  // ---------------------------------------------------------------------
  // Decimal notation

  function DigitChar(d: int): char
    requires 0 <= d < 10
  {
    "0123456789"[d]
  }

  predicate IsDigit(c: char)
  {
    '0' <= c <= '9'
  }

  /** The decimal notation of a natural number, most significant digit first. */
  function NatDigits(n: nat): (r: string)
    ensures |r| > 0
    ensures forall i :: 0 <= i < |r| ==> IsDigit(r[i])
    decreases n
  {
    if n < 10 then [DigitChar(n)] else NatDigits(n / 10) + [DigitChar(n % 10)]
  }

  /** `String(n)` for an integer number below 1e21 in magnitude; from
      1e21 up JavaScript switches to exponent notation, which is not
      modelled. */
  function Decimal(n: int): string
  {
    if n < 0 then "-" + NatDigits(-n) else NatDigits(n)
  }

  /** Reads back a non-empty run of decimal digits. */
  function ParseDigits(s: string): (n: nat)
    requires forall i :: 0 <= i < |s| ==> IsDigit(s[i])
    decreases |s|
  {
    if |s| == 0 then 0
    else
      assert IsDigit(s[|s| - 1]);
      10 * ParseDigits(s[..|s| - 1]) + (s[|s| - 1] as int - '0' as int)
  }

  /** Reads back the notation `Decimal` writes. */
  function ParseDecimal(s: string): (r: int)
    requires |s| > 0
    requires s[0] == '-' ==> forall i :: 1 <= i < |s| ==> IsDigit(s[i])
    requires s[0] != '-' ==> forall i :: 0 <= i < |s| ==> IsDigit(s[i])
  {
    if s[0] == '-' then 0 - ParseDigits(s[1..]) as int else ParseDigits(s)
  }

  /** Distinct numbers are written differently: reading the notation back
      gives the number. */
  lemma {:induction false} NatDigitsRoundTrip(n: nat)
    ensures ParseDigits(NatDigits(n)) == n
    decreases n
  {
    var s := NatDigits(n);
    if n >= 10 {
      NatDigitsRoundTrip(n / 10);
      assert s[..|s| - 1] == NatDigits(n / 10);
    }
  }

  /** A three-digit number is written with its three digits. */
  lemma NatDigitsThree(n: nat)
    requires 100 <= n < 1000
    ensures NatDigits(n) == [DigitChar(n / 100), DigitChar(n / 10 % 10), DigitChar(n % 10)]
  {
    assert n / 10 / 10 == n / 100;
    assert 10 <= n / 10 && n / 100 < 10;
    assert NatDigits(n / 10) == [DigitChar(n / 100)] + [DigitChar(n / 10 % 10)];
    assert NatDigits(n) == NatDigits(n / 10) + [DigitChar(n % 10)];
  }

  lemma DecimalExamples()
    ensures Decimal(200) == "200"
    ensures Decimal(404) == "404"
    ensures Decimal(-7) == "-7"
  {
    NatDigitsThree(200);
    NatDigitsThree(404);
    assert DigitChar(0) == '0' && DigitChar(2) == '2' && DigitChar(4) == '4' && DigitChar(7) == '7';
    assert NatDigits(7) == "7";
  }

  lemma DecimalRoundTrip(n: int)
    ensures |Decimal(n)| > 0
    ensures ParseDecimal(Decimal(n)) == n
  {
    NatDigitsRoundTrip(if n < 0 then -n else n);
    if n < 0 {
      var d := NatDigits(-n);
      assert Decimal(n) == "-" + d;
      assert ("-" + d)[1..] == d;
    }
  }

  // ---------------------------------------------------------------------
  // Strings

  /** `s.toLowerCase()` on the ASCII letters. */
  function LowerChar(c: char): char
  {
    if 'A' <= c <= 'Z' then (c as int + 32) as char else c
  }

  function Lower(s: string): (r: string)
    ensures |r| == |s|
    ensures forall i :: 0 <= i < |s| ==> r[i] == LowerChar(s[i])
  {
    seq(|s|, i requires 0 <= i < |s| => LowerChar(s[i]))
  }

  /** Lower-casing a lower-cased name changes nothing, so a lookup that
      lower-cases an already lower-cased key finds the same entry. */
  lemma LowerIdempotent(s: string)
    ensures Lower(Lower(s)) == Lower(s)
  {
  }

  /** `sub` occurs in `s` starting at position `i`. */
  predicate OccursAt(s: string, sub: string, i: int)
  {
    0 <= i <= |s| - |sub| && s[i..i + |sub|] == sub
  }

  /** `sub` occurs in `s` at some position. */
  predicate Contains(s: string, sub: string)
  {
    exists i :: 0 <= i <= |s| && OccursAt(s, sub, i)
  }

  // ---------------------------------------------------------------------
  // String(v)

  /** `RegExp.prototype.toString`: `/source/flags`. */
  function PatternText(p: Pattern): string
  {
    "/" + p.source + "/" + p.flags
  }

  /** `String(v)`, the conversion `RegExp#test` applies to its argument. */
  function ToString(v: Value): string
    decreases v
  {
    match v
    case Undefined => "undefined"
    case Null => "null"
    case Bool(b) => if b then "true" else "false"
    case Num(n) => Decimal(n)
    case Str(s) => s
    case Arr(xs) => JoinItems(xs)
    case Obj(_) => "[object Object]"
    case Regex(p) => PatternText(p)
  }

  /** `Array.prototype.join(",")`: `null` and `undefined` items are empty. */
  function JoinItems(xs: seq<Value>): string
    decreases xs
  {
    if |xs| == 0 then ""
    else
      var last := xs[|xs| - 1];
      var text := if last.Null? || last.Undefined? then "" else ToString(last);
      if |xs| == 1 then text else JoinItems(xs[..|xs| - 1]) + "," + text
  }

  // ---------------------------------------------------------------------
  // Plain patterns

  /** The characters with a meaning of their own in a pattern's source. */
  predicate IsSpecial(c: char)
  {
    || c == '\\' || c == '^' || c == '$' || c == '.' || c == '|' || c == '?' || c == '*' || c == '+'
    || c == '(' || c == ')' || c == '[' || c == ']' || c == '{' || c == '}' || c == '/'
  }

  /** A pattern of ordinary characters and no flags, such as `/json/`. */
  predicate IsPlain(p: Pattern)
  {
    && p.flags == ""
    && forall i :: 0 <= i < |p.source| ==> !IsSpecial(p.source[i])
  }

  /** `RegExp#test` for a plain pattern: it matches iff its source occurs
      in the subject. Other patterns are not given a meaning here. */
  function LiteralMatch(p: Pattern, s: string): bool
  {
    IsPlain(p) && Contains(s, p.source)
  }

  /** `application/json` mentions `json`, at position 12. */
  lemma ApplicationJsonMentionsJson()
    ensures Contains("application/json", "json")
  {
    assert OccursAt("application/json", "json", 12);
  }

  /** A string without the first character of `sub` cannot contain it. */
  lemma AbsentFirstChar(s: string, sub: string)
    requires |sub| > 0
    requires sub[0] !in s
    ensures !Contains(s, sub)
  {
    forall i | 0 <= i <= |s|
      ensures !OccursAt(s, sub, i)
    {
      if i <= |s| - |sub| {
        assert s[i] in s;
        assert s[i..i + |sub|][0] == s[i] != sub[0];
      }
    }
  }

  /** The absent markers and an upper-case `JSON` do not mention `json`. */
  lemma WithoutJson()
    ensures !Contains("undefined", "json")
    ensures !Contains("null", "json")
    ensures !Contains("application/JSON", "json")
  {
    AbsentFirstChar("undefined", "json");
    AbsentFirstChar("null", "json");
    AbsentFirstChar("application/JSON", "json");
  }

  /** The `/json/` test both revisions apply to a content-type value. */
  const JsonPattern: Pattern := Pattern("json", "")

  /** `/json/.test(v)`: the value, converted to a string, mentions `json`
      in lower case. */
  predicate MentionsJson(v: Value)
  {
    LiteralMatch(JsonPattern, ToString(v))
  }

  lemma MentionsJsonMeansContains(v: Value)
    ensures MentionsJson(v) <==> Contains(ToString(v), "json")
  {
    assert IsPlain(JsonPattern);
  }

  // ---------------------------------------------------------------------
  // assert.deepStrictEqual

  function KeySet(ms: seq<Member>): set<string>
  {
    set m | m in ms :: m.key
  }

  /** `assert.deepStrictEqual(a, b)` holds: primitives and patterns are
      compared by value, arrays item by item, and objects by their key sets
      and the values under each key, whatever order the keys were added in. */
  predicate DeepStrictEqual(a: Value, b: Value)
    decreases a
  {
    match a
    case Arr(xs) =>
      && b.Arr?
      && |xs| == |b.items|
      && forall i :: 0 <= i < |xs| ==> DeepStrictEqual(xs[i], b.items[i])
    case Obj(ms) =>
      && b.Obj?
      && KeySet(ms) == KeySet(b.members)
      && forall i, j :: 0 <= i < |ms| && 0 <= j < |b.members| && ms[i].key == b.members[j].key ==>
           DeepStrictEqual(ms[i].val, b.members[j].val)
    case _ => a == b
  }

  /** Every well-formed value is deep-equal to itself. */
  lemma {:induction false} DeepStrictEqualReflexive(v: Value)
    requires Wf(v)
    ensures DeepStrictEqual(v, v)
    decreases v
  {
    match v
    case Arr(xs) =>
      forall i | 0 <= i < |xs|
        ensures DeepStrictEqual(xs[i], xs[i])
      {
        DeepStrictEqualReflexive(xs[i]);
      }
    case Obj(ms) =>
      forall i, j | 0 <= i < |ms| && 0 <= j < |ms| && ms[i].key == ms[j].key
        ensures DeepStrictEqual(ms[i].val, ms[j].val)
      {
        assert i == j;
        DeepStrictEqualReflexive(ms[i].val);
      }
    case _ =>
  }

  /** The comparison does not depend on which side is the expected value. */
  lemma {:induction false} DeepStrictEqualSymmetric(a: Value, b: Value)
    requires DeepStrictEqual(a, b)
    ensures DeepStrictEqual(b, a)
    decreases a
  {
    match a
    case Arr(xs) =>
      forall i | 0 <= i < |xs|
        ensures DeepStrictEqual(b.items[i], xs[i])
      {
        DeepStrictEqualSymmetric(xs[i], b.items[i]);
      }
    case Obj(ms) =>
      var ns := b.members;
      forall j, i | 0 <= j < |ns| && 0 <= i < |ms| && ns[j].key == ms[i].key
        ensures DeepStrictEqual(ns[j].val, ms[i].val)
      {
        DeepStrictEqualSymmetric(ms[i].val, ns[j].val);
      }
    case _ =>
  }

  /** On strings, numbers, booleans, `null`, `undefined` and patterns the
      comparison is plain equality. */
  lemma DeepStrictEqualOnScalars(a: Value, b: Value)
    requires !a.Arr? && !a.Obj?
    ensures DeepStrictEqual(a, b) <==> a == b
  {
  }

  /** Object key order is irrelevant: `{ a: 1, b: 2 }` and `{ b: 2, a: 1 }`
      are deep-equal although they are different values. */
  lemma KeyOrderIrrelevant()
    ensures DeepStrictEqual(Obj([Member("a", Num(1)), Member("b", Num(2))]),
                            Obj([Member("b", Num(2)), Member("a", Num(1))]))
    ensures Obj([Member("a", Num(1)), Member("b", Num(2))]) != Obj([Member("b", Num(2)), Member("a", Num(1))])
  {
    var ms := [Member("a", Num(1)), Member("b", Num(2))];
    var ns := [Member("b", Num(2)), Member("a", Num(1))];
    assert KeySet(ms) == {"a", "b"} by {
      assert ms[0] in ms && ms[1] in ms;
    }
    assert KeySet(ns) == {"a", "b"} by {
      assert ns[0] in ns && ns[1] in ns;
    }
    assert ms[0] != ns[0];
  }
}

=== FILE: messages.dfy ===
/** The comparisons and failure messages the two revisions of the
    assertion engine share (src/response.js:47-70, response.js:42-66). Each
    message is a tagged template rendered by `Inspect.Template`. */
module Messages {
  import opened JsValue
  import opened Inspect

  /** `inspect`expected ${status}, got ${this.status}``. */
  function StatusMessage(expected: int, actual: int): string
  {
    Template(["expected ", ", got ", ""], [Num(expected), Num(actual)])
  }

  /** A body check holds: a pattern must match the stringified body
      (`RegExp#test`), any other value must be deep-strict-equal to it. */
  predicate BodyAgrees(m: Matcher, expected: Value, actual: Value)
  {
    if expected.Regex? then m(expected.pattern, ToString(actual)) else DeepStrictEqual(expected, actual)
  }

  /** `expected ${this.body} to match ${body}` for a pattern,
      `expected ${body}, got ${this.body}` otherwise. */
  function BodyMessage(expected: Value, actual: Value): string
  {
    if expected.Regex? then Template(["expected ", " to match ", ""], [actual, expected])
    else Template(["expected ", ", got ", ""], [expected, actual])
  }

  /** A header check holds: a pattern must match the stringified header
      value, any other value must be strictly equal to it. The value looked
      up is a string or an absent marker (`null` or `undefined`), so strict
      equality is equality of values. */
  predicate HeaderAgrees(m: Matcher, expected: Value, actual: Value)
  {
    if expected.Regex? then m(expected.pattern, ToString(actual)) else expected == actual
  }

  /** `expected ${key} of ${actual} to match ${value}` for a pattern,
      `expected ${key} of ${value}, got ${actual}` otherwise. */
  function HeaderMessage(key: string, expected: Value, actual: Value): string
  {
    if expected.Regex? then Template(["expected ", " of ", " to match ", ""], [Str(key), actual, expected])
    else Template(["expected ", " of ", ", got ", ""], [Str(key), expected, actual])
  }

  /** `inspect`expected ${key} header`` (older revision only). */
  function MissingHeaderMessage(key: string): string
  {
    Template(["expected ", " header"], [Str(key)])
  }

  // ---------------------------------------------------------------------
  // The messages as plain text

  lemma StatusMessageText(expected: int, actual: int)
    ensures StatusMessage(expected, actual) == "expected " + Decimal(expected) + ", got " + Decimal(actual)
  {
    TemplateTwo("expected ", ", got ", "", Num(expected), Num(actual));
  }

  /** The message of the status tests: `expected 404, got 200`. */
  lemma StatusMessageExample()
    ensures StatusMessage(404, 200) == "expected 404, got 200"
  {
    StatusMessageText(404, 200);
    DecimalExamples();
  }

  lemma BodyMessageText(expected: Value, actual: Value)
    ensures expected.Regex? ==>
      BodyMessage(expected, actual) == "expected " + Render(actual) + " to match " + PatternText(expected.pattern)
    ensures !expected.Regex? ==>
      BodyMessage(expected, actual) == "expected " + Render(expected) + ", got " + Render(actual)
  {
    TemplateTwo("expected ", " to match ", "", actual, expected);
    TemplateTwo("expected ", ", got ", "", expected, actual);
  }

  lemma HeaderMessageText(key: string, expected: Value, actual: Value)
    ensures expected.Regex? ==>
      HeaderMessage(key, expected, actual)
      == "expected " + Quote(key) + " of " + Render(actual) + " to match " + PatternText(expected.pattern)
    ensures !expected.Regex? ==>
      HeaderMessage(key, expected, actual)
      == "expected " + Quote(key) + " of " + Render(expected) + ", got " + Render(actual)
  {
    TemplateThree("expected ", " of ", " to match ", "", Str(key), actual, expected);
    TemplateThree("expected ", " of ", ", got ", "", Str(key), expected, actual);
  }

  lemma MissingHeaderMessageText(key: string)
    ensures MissingHeaderMessage(key) == "expected " + Quote(key) + " header"
  {
    TemplateOne("expected ", " header", Str(key));
  }

  /** Distinct keys are quoted differently. */
  lemma QuoteInjective(k1: string, k2: string)
    requires k1 != k2
    ensures Quote(k1) != Quote(k2)
  {
    UnquoteQuote(k1);
    UnquoteQuote(k2);
  }
}

=== FILE: results.dfy ===
/** Failure-carrying datatypes shared by the request builder and the
    assertion engine. */
module Results {

  datatype Option<+T> = None | Some(value: T)

  /** A computation that either yields a value or raises an error with a
      message (a thrown `Error`, a rejected promise). */
  datatype Result<+T> = Ok(value: T) | Err(message: string)

  /** The verdict of one assertion helper (`assertStatus`, `assertBody`,
      `assertHeader`): it holds, it raises an `AssertionError` with a
      message, or it raises a `TypeError` before comparing anything. */
  datatype Verdict = Holds | Fails(message: string) | Throws

  /** What one call of `assert`/`expect` does: it returns the response for
      chaining, raises an `AssertionError`, raises the usage error reserved
      for a wrong number of arguments, or raises a `TypeError`. */
  datatype Outcome<R> = Pass(response: R) | Fail(message: string) | UsageError(message: string) | TypeError

  /** `assert.ok(cond, message)` and its relatives: hold iff `cond`. */
  function Require(cond: bool, message: string): (v: Verdict)
    ensures v.Holds? <==> cond
    ensures !cond ==> v == Fails(message)
  {
    if cond then Holds else Fails(message)
  }

  /** Two helpers run one after the other: the second only runs when the
      first holds. */
  function AndThen(first: Verdict, second: Verdict): (v: Verdict)
    ensures v.Holds? <==> first.Holds? && second.Holds?
    ensures !first.Holds? ==> v == first
  {
    if first.Holds? then second else first
  }

  /** Turns the verdict of the helpers into the outcome of the call that
      returns `response` when nothing was raised. */
  function Finish<R>(v: Verdict, response: R): (o: Outcome<R>)
    ensures o.Pass? <==> v.Holds?
    ensures o.Pass? ==> o.response == response
    ensures v.Fails? ==> o == Fail(v.message)
    ensures v.Throws? ==> o.TypeError?
  {
    match v
    case Holds => Pass(response)
    case Fails(msg) => Fail(msg)
    case Throws => TypeError
  }

  /** Two outcomes reach the same verdict: both pass, or both raise the same
      error. The response a passing call returns is not compared. */
  predicate SameVerdict<R, S>(a: Outcome<R>, b: Outcome<S>)
  {
    match a
    case Pass(_) => b.Pass?
    case Fail(m) => b == Fail(m)
    case UsageError(m) => b == UsageError(m)
    case TypeError => b.TypeError?
  }
}

=== FILE: revisions.dfy ===
/** How the two revisions relate. A newer response and an older one that
    share their status and body, and whose header object is the newer
    collection read as a plain object, reach the same verdict on every call
    both accept, except any check of an absent header: the newer revision
    reads it as `null` and the older one as `undefined`, or reports it
    missing. They part on the number of arguments and on absent headers.
    The request builders part on the number of arguments `set` is given,
    and the older `send` decodes a JSON reply twice. */
module Revisions {
  import opened Results
  import opened JsValue
  import opened Inspect
  import opened Messages
  import opened HeaderBag
  import opened Dispatch
  import FetchHeaders
  import SrcResponse
  import RootResponse
  import SrcRequest
  import RootRequest

  /** The older response holding what the newer one holds. */
  predicate Corresponding(n: SrcResponse.Response, o: RootResponse.Response)
  {
    n.status == o.status && n.body == o.body && o.headers == n.headers.entries
  }

  /** Status and body checks agree. */
  lemma StatusAndBodyChecksAgree(m: Matcher, n: SrcResponse.Response, o: RootResponse.Response, args: seq<Value>)
    requires Corresponding(n, o)
    requires |args| == 1 || (|args| == 2 && args[0].Num?)
    ensures SameVerdict(SrcResponse.Assert(m, n, args), RootResponse.Expect(m, o, args))
  {
  }

  /** Header checks agree whenever the header is present. */
  lemma PresentHeaderChecksAgree(m: Matcher, n: SrcResponse.Response, o: RootResponse.Response, key: string, expected: Value)
    requires Corresponding(n, o)
    requires Lower(key) in n.headers.entries
    ensures SameVerdict(SrcResponse.Assert(m, n, [Str(key), expected]), RootResponse.Expect(m, o, [Str(key), expected]))
  {
    LowerIdempotent(key);
  }

  /** A literal check of an absent header: the newer revision compares with
      `null`, the older one reports the header missing. */
  lemma AbsentHeaderChecksDiffer(m: Matcher, n: SrcResponse.Response, o: RootResponse.Response, key: string, expected: Value)
    requires Corresponding(n, o)
    requires Lower(key) !in n.headers.entries
    requires !expected.Regex?
    ensures SrcResponse.Assert(m, n, [Str(key), expected])
            == (if expected == Null then Pass(n) else Fail(HeaderMessage(key, expected, Null)))
    ensures RootResponse.Expect(m, o, [Str(key), expected]) == Fail(MissingHeaderMessage(key))
  {
    LowerIdempotent(key);
  }

  /** A pattern check of an absent header tests `String(null)` in the newer
      revision and `String(undefined)` in the older one, so `/undefined/`
      fails in the first and passes in the second. */
  lemma AbsentHeaderPatternChecksDiffer(n: SrcResponse.Response, o: RootResponse.Response, key: string)
    requires Corresponding(n, o)
    requires Lower(key) !in n.headers.entries
    ensures !SrcResponse.Assert(LiteralMatch, n, [Str(key), Regex(Pattern("undefined", ""))]).Pass?
    ensures RootResponse.Expect(LiteralMatch, o, [Str(key), Regex(Pattern("undefined", ""))]).Pass?
  {
    LowerIdempotent(key);
    assert OccursAt("undefined", "undefined", 0);
    assert IsPlain(Pattern("undefined", ""));
    assert !Contains("null", "undefined");
  }

  /** The two failure messages for an absent header are different texts. */
  lemma AbsentHeaderMessagesDiffer(key: string, expected: Value)
    requires !expected.Regex?
    ensures HeaderMessage(key, expected, Null) != MissingHeaderMessage(key)
  {
    HeaderMessageText(key, expected, Null);
    MissingHeaderMessageText(key);
    var prefix := "expected " + Quote(key) + " ";
    var a := prefix + "of " + Render(expected) + ", got null";
    var b := prefix + "header";
    assert HeaderMessage(key, expected, Null) == a;
    assert MissingHeaderMessage(key) == b;
    assert a[|prefix|] == 'o';
    assert b[|prefix|] == 'h';
  }

  /** No arguments: a usage error in the newer revision, a pass in the
      older one. */
  lemma NoArgumentsDiffer(m: Matcher, n: SrcResponse.Response, o: RootResponse.Response)
    ensures SrcResponse.Assert(m, n, []).UsageError?
    ensures RootResponse.Expect(m, o, []) == Pass(o)
  {
  }

  /** Three arguments: a usage error in the newer revision; the older one
      checks the first two and ignores the third. */
  lemma ThreeArgumentsDiffer(m: Matcher, n: SrcResponse.Response, o: RootResponse.Response, a: Value, b: Value, c: Value)
    ensures SrcResponse.Assert(m, n, [a, b, c]).UsageError?
    ensures RootResponse.Expect(m, o, [a, b, c]) == RootResponse.Expect(m, o, [a, b])
  {
    RootResponse.ExtraArgumentsIgnored(m, o, [a, b], [c]);
    assert [a, b] + [c] == [a, b, c];
  }

  /** `set` behaves the same in both revisions on one or two arguments;
      otherwise the newer one raises and the older one does nothing. */
  lemma SetAgrees(req: Request, args: seq<Value>)
    ensures |args| == 1 || |args| == 2 ==> SrcRequest.Set(req, args) == Ok(RootRequest.Set(req, args))
    ensures |args| != 1 && |args| != 2 ==>
      SrcRequest.Set(req, args).Err? && RootRequest.Set(req, args) == req
  {
  }

  /** Decoding a reply: the newer capture and the older one, decoded once,
      accept the same replies and keep the same status and body. */
  lemma CapturesAgree(parse: Parser, reply: Reply)
    ensures SrcRequest.Capture(parse, reply).cookie == RootRequest.Capture(parse, reply).cookie
    ensures SrcRequest.Capture(parse, reply).result.Ok? <==> RootRequest.Capture(parse, reply).result.Ok?
    ensures SrcRequest.Capture(parse, reply).result.Ok? ==>
      Corresponding(SrcRequest.Capture(parse, reply).result.value, RootRequest.Capture(parse, reply).result.value)
  {
  }
}

=== FILE: root_examples.dfy ===
/** The assertion tests of test/index.js (lines 8-159) stated against the
    older revision's model. Each fixture is `new Response(200, headers, body)`
    with a header object that has no `content-type`, so the constructor keeps
    the body; patterns are plain, so `LiteralMatch` is their exact meaning.
    The longer expected messages are written in the pieces the template
    joins: the literal parts and the rendered values in turn. */
module RootExamples {
  import opened Results
  import opened JsValue
  import opened Inspect
  import opened Messages
  import opened RootResponse

  const NoHeaders: HeaderObject := map[]

  /** The constructor stores a fixture's body unchanged, whatever the JSON
      parser does. */
  lemma FixtureKeepsBody(parse: Parser, headers: HeaderObject, body: string)
    requires "content-type" !in headers
    ensures Construct(parse, 200, headers, Str(body)) == Ok(Response(200, headers, Str(body)))
  {
    WithoutJson();
  }

  lemma ExpectStatusExamples()
    ensures Expect(LiteralMatch, Response(200, NoHeaders, Str("")), [Num(200)]).Pass?
    ensures Expect(LiteralMatch, Response(200, NoHeaders, Str("")), [Num(404)]) == Fail("expected 404, got 200")
  {
    StatusMessageExample();
  }

  // The quoted forms of the strings the tests use. Each is proved for a
  // parameter equal to the literal, which keeps the solver from unfolding
  // the escaping on the literal inside a larger goal.

  lemma QuoteAccept(s: string)
    requires s == "accept"
    ensures Quote(s) == "'accept'"
  {
    QuoteOrdinary(s);
  }

  lemma QuoteTextHtml(s: string)
    requires s == "text/html"
    ensures Quote(s) == "'text/html'"
  {
    QuoteOrdinary(s);
  }

  lemma QuoteApplicationJson(s: string)
    requires s == "application/json"
    ensures Quote(s) == "'application/json'"
  {
    QuoteOrdinary(s);
  }

  lemma MissingAcceptText(k: string)
    requires k == "accept"
    ensures MissingHeaderMessage(k) == "expected 'accept' header"
  {
    MissingHeaderMessageText(k);
    QuoteAccept(k);
  }

  lemma ExpectMissingHeaderExample()
    ensures Expect(LiteralMatch, Response(200, NoHeaders, Str("")), [Str("accept"), Str("application/json")])
            == Fail("expected 'accept' header")
  {
    var resp := Response(200, NoHeaders, Str(""));
    var args := [Str("accept"), Str("application/json")];
    assert Property(resp.headers, Lower("accept")) == Undefined;
    var o := Expect(LiteralMatch, resp, args);
    assert o == Fail(MissingHeaderMessage("accept"));
    MissingAcceptText("accept");
  }

  lemma MismatchedAcceptText(k: string, e: string, a: string)
    requires k == "accept" && e == "application/json" && a == "text/html"
    ensures HeaderMessage(k, Str(e), Str(a)) == "expected " + "'accept'" + " of " + "'application/json'" + ", got " + "'text/html'"
  {
    HeaderMessageText(k, Str(e), Str(a));
    QuoteAccept(k);
    QuoteTextHtml(a);
    QuoteApplicationJson(e);
  }

  lemma ExpectMismatchedHeaderExample()
    ensures Expect(LiteralMatch, Response(200, map["accept" := "text/html"], Str("")),
                   [Str("accept"), Str("application/json")])
            == Fail("expected " + "'accept'" + " of " + "'application/json'" + ", got " + "'text/html'")
  {
    var resp := Response(200, map["accept" := "text/html"], Str(""));
    var args := [Str("accept"), Str("application/json")];
    assert Lower("accept") == "accept";
    assert Property(resp.headers, Lower("accept")) == Str("text/html");
    var o := Expect(LiteralMatch, resp, args);
    assert o == Fail(HeaderMessage("accept", Str("application/json"), Str("text/html")));
    MismatchedAcceptText("accept", "application/json", "text/html");
  }

  lemma ExpectMatchingHeaderExamples()
    ensures Expect(LiteralMatch, Response(200, map["accept" := "application/json"], Str("")),
                   [Str("accept"), Str("application/json")]).Pass?
    ensures Expect(LiteralMatch, Response(200, map["accept" := "application/json"], Str("")),
                   [Str("Accept"), Str("application/json")]).Pass?
  {
    assert Lower("accept") == "accept";
    assert Lower("Accept") == "accept";
  }

  lemma BodyYXText()
    ensures BodyMessage(Str("y"), Str("x")) == "expected 'y', got 'x'"
  {
    BodyMessageText(Str("y"), Str("x"));
    QuoteOrdinary("x");
    QuoteOrdinary("y");
    assert Quote("x") == "'x'";
    assert Quote("y") == "'y'";
  }

  lemma ExpectBodyExamples()
    ensures Expect(LiteralMatch, Response(200, NoHeaders, Str("body")), [Str("body")]).Pass?
    ensures Expect(LiteralMatch, Response(200, NoHeaders, Str("x")), [Str("y")]) == Fail("expected 'y', got 'x'")
  {
    BodyYXText();
  }

  lemma ExpectStatusAndBodyMismatchedStatus()
    ensures Expect(LiteralMatch, Response(200, NoHeaders, Str("x")), [Num(404), Str("y")]) == Fail("expected 404, got 200")
  {
    StatusMessageExample();
  }

  lemma ExpectStatusAndBodyMismatchedBody()
    ensures Expect(LiteralMatch, Response(200, NoHeaders, Str("x")), [Num(200), Str("y")]) == Fail("expected 'y', got 'x'")
  {
    var o := Expect(LiteralMatch, Response(200, NoHeaders, Str("x")), [Num(200), Str("y")]);
    assert !DeepStrictEqual(Str("y"), Str("x"));
    assert o == Fail(BodyMessage(Str("y"), Str("x")));
    BodyYXText();
  }

  /** `/x/` matches `'x'` and `/y/` does not. */
  lemma PlainPatternFacts()
    ensures LiteralMatch(Pattern("x", ""), "x")
    ensures !LiteralMatch(Pattern("y", ""), "x")
  {
    assert OccursAt("x", "x", 0);
    AbsentFirstChar("x", "y");
  }

  lemma XToMatchYText()
    ensures BodyMessage(Regex(Pattern("y", "")), Str("x")) == "expected 'x' to match /y/"
  {
    BodyMessageText(Regex(Pattern("y", "")), Str("x"));
    QuoteOrdinary("x");
    assert Quote("x") == "'x'";
    assert PatternText(Pattern("y", "")) == "/y/";
  }

  lemma ExpectPatternBodyExamples()
    ensures Expect(LiteralMatch, Response(200, NoHeaders, Str("x")), [Regex(Pattern("x", ""))]).Pass?
    ensures Expect(LiteralMatch, Response(200, NoHeaders, Str("x")), [Regex(Pattern("y", ""))])
            == Fail("expected 'x' to match /y/")
    ensures Expect(LiteralMatch, Response(200, NoHeaders, Str("x")), [Num(200), Regex(Pattern("x", ""))]).Pass?
    ensures Expect(LiteralMatch, Response(200, NoHeaders, Str("x")), [Num(200), Regex(Pattern("y", ""))])
            == Fail("expected 'x' to match /y/")
  {
    PlainPatternFacts();
    XToMatchYText();
    var resp := Response(200, NoHeaders, Str("x"));
    assert Expect(LiteralMatch, resp, [Regex(Pattern("y", ""))]) == Fail(BodyMessage(Regex(Pattern("y", "")), Str("x")));
    assert Expect(LiteralMatch, resp, [Num(200), Regex(Pattern("y", ""))]) == Fail(BodyMessage(Regex(Pattern("y", "")), Str("x")));
  }

  /** `/json/` matches `'application/json'` and not `'text/html'`. */
  lemma JsonPatternFacts()
    ensures LiteralMatch(JsonPattern, "application/json")
    ensures !LiteralMatch(JsonPattern, "text/html")
  {
    assert IsPlain(JsonPattern);
    ApplicationJsonMentionsJson();
    var s := "text/html";
    AbsentFirstChar(s, "json");
  }

  lemma PatternJsonHeaderText(k: string, a: string)
    requires k == "accept" && a == "text/html"
    ensures HeaderMessage(k, Regex(JsonPattern), Str(a)) == "expected " + "'accept'" + " of " + "'text/html'" + " to match " + "/json/"
  {
    HeaderMessageText(k, Regex(JsonPattern), Str(a));
    QuoteAccept(k);
    QuoteTextHtml(a);
    assert Render(Str(a)) == "'text/html'";
    assert PatternText(JsonPattern) == "/json/";
  }

  lemma ExpectPatternHeaderExamples()
    ensures Expect(LiteralMatch, Response(200, map["accept" := "application/json"], Str("x")),
                   [Str("accept"), Regex(JsonPattern)]).Pass?
    ensures Expect(LiteralMatch, Response(200, map["accept" := "text/html"], Str("x")),
                   [Str("accept"), Regex(JsonPattern)])
            == Fail("expected " + "'accept'" + " of " + "'text/html'" + " to match " + "/json/")
  {
    assert Lower("accept") == "accept";
    JsonPatternFacts();
    var miss := Response(200, map["accept" := "text/html"], Str("x"));
    assert Property(miss.headers, Lower("accept")) == Str("text/html");
    var o := Expect(LiteralMatch, miss, [Str("accept"), Regex(JsonPattern)]);
    assert o == Fail(HeaderMessage("accept", Regex(JsonPattern), Str("text/html")));
    PatternJsonHeaderText("accept", "text/html");
  }
}

=== FILE: root_request.dfy ===
/** The older revision's request builder (request.js). `set` with a wrong
    number of arguments does nothing; `send` builds the older response
    positionally from the status, the reply's headers and the decoded
    body. The older response reads its headers by property; the model
    assumes that the reply's header collection exposes each stored header
    as a property, and so gives the older response the collection's
    lower-cased names and their values. */
module RootRequest {
  import opened Results
  import opened JsValue
  import opened HeaderBag
  import opened Dispatch
  import FetchHeaders
  import RootResponse

  /** `request.set(...args)`: two arguments set a key, one argument merges
      its own properties, any other number leaves the headers as they are.
      The builder itself is returned. */
  function Set(req: Request, args: seq<Value>): (r: Request)
    ensures r.verb == req.verb && r.path == req.path
    ensures |args| != 1 && |args| != 2 ==> r == req
    ensures |args| == 2 ==> SetsOnly(req.headers, r.headers, ToString(args[0]), args[1])
    ensures |args| == 1 ==> r.headers == Assign(req.headers, OwnEntries(args[0]))
  {
    if |args| == 2 then req.(headers := Put(req.headers, args[0], args[1]))
    else if |args| == 1 then req.(headers := Assign(req.headers, OwnEntries(args[0])))
    else req
  }

  function Type(ct: ContentType, req: Request, alias: Value): (r: Request)
    ensures r.verb == req.verb && r.path == req.path
    ensures SetsOnly(req.headers, r.headers, ContentTypeKey, ct(alias))
  {
    Set(req, [Str(ContentTypeKey), ct(alias)])
  }

  function Accept(ct: ContentType, req: Request, alias: Value): (r: Request)
    ensures r.verb == req.verb && r.path == req.path
    ensures SetsOnly(req.headers, r.headers, "accept", ct(alias))
  {
    Set(req, [Str("accept"), ct(alias)])
  }

  /** The reply as the request hands it over: `send` decodes the body by the
      reply's content type and the constructor then decodes the decoded
      value again, converted back to a string, whenever its header object
      shows a json content type. A JSON object reply is converted to
      `[object Object]` on the way and the second parse rejects it. */
  function CaptureAsWritten(parse: Parser, reply: Reply): (c: Captured<RootResponse.Response>)
    ensures c.cookie == Lookup(reply.headers, "set-cookie")
    ensures !Contains(ToString(Lookup(reply.headers, "content-type")), "json") ==>
      c.result == Ok(RootResponse.Response(reply.status, reply.headers.entries, Str(reply.raw)))
    ensures Contains(ToString(Lookup(reply.headers, "content-type")), "json") ==>
      (c.result.Ok? <==> parse(reply.raw).Ok? && parse(ToString(parse(reply.raw).value)).Ok?)
    ensures Contains(ToString(Lookup(reply.headers, "content-type")), "json") && c.result.Ok? ==>
      c.result.value == RootResponse.Response(reply.status, reply.headers.entries, parse(ToString(parse(reply.raw).value)).value)
    ensures Contains(ToString(Lookup(reply.headers, "content-type")), "json") && parse(reply.raw).Err? ==>
      c.result == Err(parse(reply.raw).message)
  {
    var cookie := Lookup(reply.headers, "set-cookie");
    SameContentTypeView(reply.headers);
    match DecodeBody(parse, Lookup(reply.headers, "content-type"), reply.raw)
    case Err(e) => Captured(cookie, Err(e))
    case Ok(data) => Captured(cookie, RootResponse.Construct(parse, reply.status, reply.headers.entries, data))
  }

  /** The reply as the older response evidently means to receive it: the
      raw text, decoded once, by the constructor alone. */
  function Capture(parse: Parser, reply: Reply): (c: Captured<RootResponse.Response>)
    ensures c.cookie == Lookup(reply.headers, "set-cookie")
    ensures c.result.Ok? <==> DecodeBody(parse, Lookup(reply.headers, "content-type"), reply.raw).Ok?
    ensures c.result.Err? ==> c.result.message == DecodeBody(parse, Lookup(reply.headers, "content-type"), reply.raw).message
    ensures c.result.Ok? ==>
      && c.result.value.status == reply.status
      && c.result.value.headers == reply.headers.entries
      && c.result.value.body == DecodeBody(parse, Lookup(reply.headers, "content-type"), reply.raw).value
  {
    SameContentTypeView(reply.headers);
    Captured(Lookup(reply.headers, "set-cookie"), RootResponse.Construct(parse, reply.status, reply.headers.entries, Str(reply.raw)))
  }

  /** The older response's `headers['content-type']` on the plain-object
      view and the collection's `get('content-type')` agree on whether the
      content type mentions `json`: both are the stored value when there is
      one, and `undefined` and `null` mention nothing. */
  lemma SameContentTypeView(h: FetchHeaders.Collection)
    ensures Contains(ToString(RootResponse.Property(h.entries, "content-type")), "json")
            <==> Contains(ToString(Lookup(h, "content-type")), "json")
  {
    assert Lower("content-type") == "content-type";
    WithoutJson();
  }

  /** `request.send(body)` as written: the reply is decoded by `send` and
      then again by the older response's constructor. */
  function Send(ct: ContentType, stringify: Stringify, parse: Parser, req: Request, body: SendBody, cookie: Value,
                listen: Result<nat>, fetch: Outbound -> Result<Reply>): (s: Settled<RootResponse.Response>)
    ensures CookieKey in s.request.headers && s.request.headers[CookieKey] == cookie
    ensures NeedsJsonEncoding(body) ==>
      ContentTypeKey in s.request.headers && s.request.headers[ContentTypeKey] == ct(Str("json"))
    ensures s.result.Ok? ==>
      && listen.Ok?
      && |s.trace| == 3
      && s.trace[1].Dispatched?
      && fetch(s.trace[1].request).Ok?
      && s.result == CaptureAsWritten(parse, fetch(s.trace[1].request).value).result
    ensures ClosedAfterDispatch(s.trace)
  {
    SendClosesAfterDispatch(ct, stringify, req, body, cookie, listen, fetch, r => CaptureAsWritten(parse, r));
    Dispatch.Send(ct, stringify, req, body, cookie, listen, fetch, r => CaptureAsWritten(parse, r))
  }

  /** `request.send(body)` with the reply decoded once, by the constructor
      alone. */
  function SendDecodedOnce(ct: ContentType, stringify: Stringify, parse: Parser, req: Request, body: SendBody, cookie: Value,
                listen: Result<nat>, fetch: Outbound -> Result<Reply>): (s: Settled<RootResponse.Response>)
    ensures CookieKey in s.request.headers && s.request.headers[CookieKey] == cookie
    ensures NeedsJsonEncoding(body) ==>
      ContentTypeKey in s.request.headers && s.request.headers[ContentTypeKey] == ct(Str("json"))
    ensures s.result.Ok? ==>
      && listen.Ok?
      && |s.trace| == 3
      && s.trace[1].Dispatched?
      && fetch(s.trace[1].request).Ok?
      && s.result == Capture(parse, fetch(s.trace[1].request).value).result
    ensures ClosedAfterDispatch(s.trace)
  {
    SendClosesAfterDispatch(ct, stringify, req, body, cookie, listen, fetch, r => Capture(parse, r));
    Dispatch.Send(ct, stringify, req, body, cookie, listen, fetch, r => Capture(parse, r))
  }

  // ---------------------------------------------------------------------
  // Properties

  /** The two sends differ only in how the reply is captured, and agree on
      every reply that is not JSON. */
  lemma SendsAgreeOnText(ct: ContentType, stringify: Stringify, parse: Parser, req: Request, body: SendBody, cookie: Value,
                         listen: Result<nat>, fetch: Outbound -> Result<Reply>)
    requires forall o :: fetch(o).Ok? ==> !Contains(ToString(Lookup(fetch(o).value.headers, "content-type")), "json")
    ensures Send(ct, stringify, parse, req, body, cookie, listen, fetch)
            == SendDecodedOnce(ct, stringify, parse, req, body, cookie, listen, fetch)
  {
    var s := Send(ct, stringify, parse, req, body, cookie, listen, fetch);
    if listen.Ok? && fetch(s.trace[1].request).Ok? {
      CapturesAgreeOnText(parse, fetch(s.trace[1].request).value);
    }
  }

  /** The two captures agree on every reply that is not JSON. */
  lemma CapturesAgreeOnText(parse: Parser, reply: Reply)
    requires !Contains(ToString(Lookup(reply.headers, "content-type")), "json")
    ensures CaptureAsWritten(parse, reply) == Capture(parse, reply)
  {
  }

  /** A JSON object reply: decoded once it is the object, decoded as
      written it is a parse error. */
  lemma DoubleDecodeRejectsObjects(parse: Parser)
    requires parse("{\"x\":1}") == Ok(Obj([Member("x", Num(1))]))
    requires parse("[object Object]").Err?
    ensures var reply := Reply(200, FetchHeaders.Headers(map["content-type" := "application/json"]), "{\"x\":1}");
      && CaptureAsWritten(parse, reply).result.Err?
      && Capture(parse, reply).result == Ok(RootResponse.Response(200, reply.headers.entries, Obj([Member("x", Num(1))])))
  {
    var h := FetchHeaders.Headers(map["content-type" := "application/json"]);
    assert Lower("content-type") == "content-type";
    assert FetchHeaders.Normalised(h);
    var reply := Reply(200, h, "{\"x\":1}");
    assert Lookup(reply.headers, "content-type") == Str("application/json");
    ApplicationJsonMentionsJson();
    assert ToString(Obj([Member("x", Num(1))])) == "[object Object]";
  }

  /** A wrong number of arguments is silently ignored. */
  lemma SetBadArityIsNoOp(req: Request, a: Value, b: Value, c: Value)
    ensures Set(req, []) == req
    ensures Set(req, [a, b, c]) == req
  {
  }
}

=== FILE: root_response.dfy ===
/** The older revision's captured response and its assertion engine
    (response.js). The constructor decodes a JSON body itself; `Expect`
    never raises a usage error: no arguments is a no-op and arguments past
    the second are ignored. Headers are a plain object read by property, so
    an absent header reads as `undefined` and a literal check of it fails
    with a dedicated message. */
module RootResponse {
  import opened Results
  import opened JsValue
  import opened Inspect
  import opened Messages

  /** A plain object of header values, read by exact property name. */
  type HeaderObject = map<string, string>

  datatype Response = Response(status: int, headers: HeaderObject, body: Value)

  /** `headers[name]` for the header's own properties: the stored string,
      or `undefined`. Names a plain object inherits are not modelled. */
  function Property(h: HeaderObject, name: string): (v: Value)
    ensures v.Undefined? <==> name !in h
    ensures v.Str? <==> name in h
    ensures name in h ==> v == Str(h[name])
  {
    if name in h then Str(h[name]) else Undefined
  }

  /** `new Response(status, headers, body)`: the body is replaced by its
      JSON parse iff the `content-type` property mentions `json` (a parse
      error propagates); otherwise it is stored unchanged. */
  function Construct(parse: Parser, status: int, headers: HeaderObject, body: Value): (r: Result<Response>)
    ensures r.Ok? ==> r.value.status == status && r.value.headers == headers
    ensures !Contains(ToString(Property(headers, "content-type")), "json") ==> r == Ok(Response(status, headers, body))
    ensures Contains(ToString(Property(headers, "content-type")), "json") ==>
      && (r.Ok? <==> parse(ToString(body)).Ok?)
      && (r.Ok? ==> r.value.body == parse(ToString(body)).value)
      && (r.Err? ==> r.message == parse(ToString(body)).message)
  {
    MentionsJsonMeansContains(Property(headers, "content-type"));
    if MentionsJson(Property(headers, "content-type")) then
      match parse(ToString(body))
      case Ok(v) => Ok(Response(status, headers, v))
      case Err(e) => Err(e)
    else
      Ok(Response(status, headers, body))
  }

  function ExpectStatus(resp: Response, expected: int): Verdict
  {
    Require(expected == resp.status, StatusMessage(expected, resp.status))
  }

  function ExpectBody(m: Matcher, resp: Response, expected: Value): Verdict
  {
    Require(BodyAgrees(m, expected, resp.body), BodyMessage(expected, resp.body))
  }

  /** The property is read under the lower-cased key; stored keys are
      not normalised. A literal check first requires the header to exist. */
  function ExpectHeader(m: Matcher, resp: Response, key: Value, expected: Value): Verdict
  {
    if !key.Str? then Throws
    else
      var actual := Property(resp.headers, Lower(key.s));
      var compare := Require(HeaderAgrees(m, expected, actual), HeaderMessage(key.s, expected, actual));
      if expected.Regex? then compare
      else AndThen(Require(actual != Undefined, MissingHeaderMessage(key.s)), compare)
  }

  /** `response.expect(...args)`. */
  function Expect(m: Matcher, resp: Response, args: seq<Value>): (o: Outcome<Response>)
    // No usage error: every argument list is accepted.
    ensures !o.UsageError?
    ensures o.Pass? ==> o.response == resp
    ensures |args| == 0 ==> o == Pass(resp)
    ensures o.TypeError? <==> |args| >= 2 && !args[0].Num? && !args[0].Str?
    // A leading number: the status, then the second argument as body if any.
    ensures |args| >= 1 && args[0].Num? ==>
      && (o.Pass? <==> args[0].n == resp.status && (|args| >= 2 ==> BodyAgrees(m, args[1], resp.body)))
      && (args[0].n != resp.status ==> o == Fail(StatusMessage(args[0].n, resp.status)))
      && (args[0].n == resp.status && !o.Pass? ==> o == Fail(BodyMessage(args[1], resp.body)))
    // Exactly one other value: the body.
    ensures |args| == 1 && !args[0].Num? ==>
      && (o.Pass? <==> BodyAgrees(m, args[0], resp.body))
      && (!o.Pass? ==> o == Fail(BodyMessage(args[0], resp.body)))
    // A string and at least one more value: the header.
    ensures |args| >= 2 && args[0].Str? && args[1].Regex? ==>
      var actual := Property(resp.headers, Lower(args[0].s));
      && (o.Pass? <==> m(args[1].pattern, ToString(actual)))
      && (!o.Pass? ==> o == Fail(HeaderMessage(args[0].s, args[1], actual)))
    ensures |args| >= 2 && args[0].Str? && !args[1].Regex? ==>
      var actual := Property(resp.headers, Lower(args[0].s));
      && (actual == Undefined ==> o == Fail(MissingHeaderMessage(args[0].s)))
      && (actual != Undefined ==> (o.Pass? <==> args[1] == actual))
      && (actual != Undefined && !o.Pass? ==> o == Fail(HeaderMessage(args[0].s, args[1], actual)))
  {
    if |args| > 0 && args[0].Num? then
      var body := if |args| > 1 then ExpectBody(m, resp, args[1]) else Holds;
      Finish(AndThen(ExpectStatus(resp, args[0].n), body), resp)
    else if |args| > 1 then
      Finish(ExpectHeader(m, resp, args[0], args[1]), resp)
    else if |args| > 0 then
      Finish(ExpectBody(m, resp, args[0]), resp)
    else
      Pass(resp)
  }

  // ---------------------------------------------------------------------
  // Properties

  /** Arguments after the second never change the outcome. */
  lemma ExtraArgumentsIgnored(m: Matcher, resp: Response, args: seq<Value>, extra: seq<Value>)
    requires |args| >= 2
    ensures Expect(m, resp, args + extra) == Expect(m, resp, args)
  {
    assert (args + extra)[0] == args[0] && (args + extra)[1] == args[1];
  }

  /** The queried key is lower-cased but stored keys are not: a header
      stored as `Accept` is missing to every query. */
  lemma StoredKeysNotNormalised(m: Matcher, status: int, body: Value, query: string, expected: Value)
    requires !expected.Regex?
    ensures var resp := Response(status, map["Accept" := "text/html"], body);
      Expect(m, resp, [Str(query), expected]) == Fail(MissingHeaderMessage(query))
  {
    assert Lower(query) != "Accept" by {
      if |query| > 0 {
        assert Lower(query)[0] == LowerChar(query[0]) != 'A';
      }
    }
  }

  /** A body-only check never consults the status or the headers. */
  lemma BodyCheckIgnoresStatusAndHeaders(m: Matcher, r1: Response, r2: Response, expected: Value)
    requires r1.body == r2.body
    requires !expected.Num?
    ensures SameVerdict(Expect(m, r1, [expected]), Expect(m, r2, [expected]))
  {
  }

  /** The decoding test is case-sensitive on both sides: a capitalised
      property name is not consulted, and `JSON` in upper case does not
      count as `json`. */
  lemma ConstructDecodingIsCaseSensitive(parse: Parser, status: int, body: Value)
    ensures Construct(parse, status, map["Content-Type" := "application/json"], body)
            == Ok(Response(status, map["Content-Type" := "application/json"], body))
    ensures Construct(parse, status, map["content-type" := "application/JSON"], body)
            == Ok(Response(status, map["content-type" := "application/JSON"], body))
  {
    WithoutJson();
  }
}

=== FILE: src_request.dfy ===
/** The newer revision's request builder (src/request.js). `set` takes one
    or two arguments and raises a usage error for any other number;
    `type` and `accept` set their header to the content type of an alias;
    `send` hands the reply's header collection to the response unchanged
    and decodes the body itself. */
module SrcRequest {
  import opened Results
  import opened JsValue
  import opened HeaderBag
  import opened Dispatch
  import FetchHeaders
  import SrcResponse

  const SetUsageMessage: string := "Request#set accepts one or two arguments"

  /** `request.set(...args)`: with two arguments the first is the key and
      the second its value; with one argument its own properties are merged
      in; otherwise the usage error, with the headers untouched. The builder
      itself is returned, so the request is the result. */
  function Set(req: Request, args: seq<Value>): (r: Result<Request>)
    ensures r.Err? <==> |args| != 1 && |args| != 2
    ensures r.Err? ==> r.message == SetUsageMessage
    ensures r.Ok? ==> r.value.verb == req.verb && r.value.path == req.path
    ensures |args| == 2 ==> SetsOnly(req.headers, r.value.headers, ToString(args[0]), args[1])
    ensures |args| == 1 ==> r.value.headers == Assign(req.headers, OwnEntries(args[0]))
  {
    if |args| == 2 then Ok(req.(headers := Put(req.headers, args[0], args[1])))
    else if |args| == 1 then Ok(req.(headers := Assign(req.headers, OwnEntries(args[0]))))
    else Err(SetUsageMessage)
  }

  /** `request.type(alias)`: `content-type` becomes the alias's content
      type, and nothing else changes. */
  function Type(ct: ContentType, req: Request, alias: Value): (r: Request)
    ensures r.verb == req.verb && r.path == req.path
    ensures SetsOnly(req.headers, r.headers, ContentTypeKey, ct(alias))
  {
    Set(req, [Str(ContentTypeKey), ct(alias)]).value
  }

  /** `request.accept(alias)`: `accept` becomes the alias's content type,
      and nothing else changes. */
  function Accept(ct: ContentType, req: Request, alias: Value): (r: Request)
    ensures r.verb == req.verb && r.path == req.path
    ensures SetsOnly(req.headers, r.headers, "accept", ct(alias))
  {
    Set(req, [Str("accept"), ct(alias)]).value
  }

  /** The reply becomes the client's cookie and the captured response:
      `set-cookie` is read (as `null` when absent) before the body is
      decoded, so the cookie is kept even when decoding fails. */
  function Capture(parse: Parser, reply: Reply): (c: Captured<SrcResponse.Response>)
    ensures c.cookie == Lookup(reply.headers, "set-cookie")
    ensures c.result.Ok? <==> DecodeBody(parse, Lookup(reply.headers, "content-type"), reply.raw).Ok?
    ensures c.result.Err? ==> c.result.message == DecodeBody(parse, Lookup(reply.headers, "content-type"), reply.raw).message
    ensures c.result.Ok? ==>
      && c.result.value.status == reply.status
      && c.result.value.headers == reply.headers
      && c.result.value.body == DecodeBody(parse, Lookup(reply.headers, "content-type"), reply.raw).value
  {
    var cookie := Lookup(reply.headers, "set-cookie");
    match DecodeBody(parse, Lookup(reply.headers, "content-type"), reply.raw)
    case Err(e) => Captured(cookie, Err(e))
    case Ok(data) =>
      Captured(cookie, Ok(SrcResponse.Construct(SrcResponse.Init(Some(reply.status), SrcResponse.Existing(reply.headers), data))))
  }

  /** `request.send(body)`. */
  function Send(ct: ContentType, stringify: Stringify, parse: Parser, req: Request, body: SendBody, cookie: Value,
                listen: Result<nat>, fetch: Outbound -> Result<Reply>): (s: Settled<SrcResponse.Response>)
    ensures CookieKey in s.request.headers && s.request.headers[CookieKey] == cookie
    ensures NeedsJsonEncoding(body) ==>
      ContentTypeKey in s.request.headers && s.request.headers[ContentTypeKey] == ct(Str("json"))
    ensures s.result.Ok? ==>
      && listen.Ok?
      && |s.trace| == 3
      && s.trace[1].Dispatched?
      && fetch(s.trace[1].request).Ok?
      && s.result == Capture(parse, fetch(s.trace[1].request).value).result
    ensures ClosedAfterDispatch(s.trace)
  {
    SendClosesAfterDispatch(ct, stringify, req, body, cookie, listen, fetch, r => Capture(parse, r));
    Dispatch.Send(ct, stringify, req, body, cookie, listen, fetch, r => Capture(parse, r))
  }

  // ---------------------------------------------------------------------
  // Properties

  /** Header keys are not case-folded: `Content-Type` set by hand and
      `content-type` set by `type` are two separate headers. */
  lemma KeysAreCaseSensitive(ct: ContentType, req: Request, alias: Value, v: Value)
    ensures var r := Set(Type(ct, req, alias), [Str("Content-Type"), v]).value;
      && r.headers["content-type"] == ct(alias)
      && r.headers["Content-Type"] == v
  {
    assert ToString(Str("Content-Type")) == "Content-Type";
    assert "Content-Type" != ContentTypeKey by {
      assert "Content-Type"[0] != ContentTypeKey[0];
    }
  }

  /** Setting a key twice keeps the later value. */
  lemma SetLastWriteWins(req: Request, key: Value, v1: Value, v2: Value)
    ensures Set(Set(req, [key, v1]).value, [key, v2]) == Set(req, [key, v2])
  {
    var k := ToString(key);
    assert req.headers[k := v1][k := v2] == req.headers[k := v2];
  }

  /** Merging an object sets each of its properties and keeps every other
      header. */
  lemma SetObjectMerges(req: Request, v: Value)
    requires v.Obj? && Wf(v)
    ensures var r := Set(req, [v]).value;
      && r.headers.Keys == req.headers.Keys + KeySet(v.members)
      && (forall i :: 0 <= i < |v.members| ==> r.headers[v.members[i].key] == v.members[i].val)
      && (forall k :: k in req.headers && k !in KeySet(v.members) ==> r.headers[k] == req.headers[k])
  {
    AssignObject(req.headers, v);
  }

  /** Zero or three arguments raise the usage error. */
  lemma SetArityExamples(req: Request, a: Value, b: Value, c: Value)
    ensures Set(req, []) == Err("Request#set accepts one or two arguments")
    ensures Set(req, [a, b, c]) == Err("Request#set accepts one or two arguments")
  {
  }

  /** A caller's `content-type` does not survive sending an object. */
  lemma SendOverwritesContentType(ct: ContentType, stringify: Stringify, parse: Parser, req: Request, v: Value,
                                  cookie: Value, listen: Result<nat>, fetch: Outbound -> Result<Reply>)
    requires !v.Null? && !v.Undefined? && !v.Str?
    ensures var s := Send(ct, stringify, parse, Type(ct, req, Str("html")), Plain(v), cookie, listen, fetch);
      s.request.headers[ContentTypeKey] == ct(Str("json"))
  {
  }
}

=== FILE: src_response.dfy ===
/** The newer revision's captured response and its assertion engine
    (src/response.js). `Assert` dispatches on the number of arguments and on
    whether the first one is a number; any other number of arguments is a
    usage error, never an assertion failure. */
module SrcResponse {
  import opened Results
  import opened JsValue
  import opened Inspect
  import opened Messages
  import FetchHeaders

  datatype Response = Response(status: int, headers: FetchHeaders.Collection, body: Value)

  /** The header argument of the constructor: a collection the fetch
      implementation produced, or a plain object given by its properties in
      insertion order. */
  datatype HeadersInit = Existing(collection: FetchHeaders.Collection) | Plain(pairs: seq<(string, string)>)

  /** The constructor's single options argument; an absent `status` is
      `None`. */
  datatype Init = Init(status: Option<int>, headers: HeadersInit, body: Value)

  const DefaultStatus: int := 200

  const UsageMessage: string := "Response#assert accepts one or two arguments"

  /** `new Response({ status = 200, headers, body })`. */
  function Construct(init: Init): (r: Response)
    ensures init.status.None? ==> r.status == DefaultStatus
    ensures init.status.Some? ==> r.status == init.status.value
    ensures r.body == init.body
    ensures init.headers.Existing? ==> r.headers == init.headers.collection
    ensures init.headers.Plain? ==>
      forall name :: FetchHeaders.Get(r.headers, name).Some? <==>
        exists i :: 0 <= i < |init.headers.pairs| && Lower(init.headers.pairs[i].0) == Lower(name)
    ensures init.headers.Plain? ==> r.headers == FetchHeaders.FromPairs(init.headers.pairs)
  {
    var status := match init.status case Some(s) => s case None => DefaultStatus;
    var headers := match init.headers
      case Existing(h) => h
      case Plain(ps) => FetchHeaders.FromPairs(ps);
    Response(status, headers, init.body)
  }

  /** `this.headers.get(key.toLowerCase())`: the header's value, or `null`
      when the response has no such header. */
  function HeaderValue(resp: Response, key: string): Value
  {
    match FetchHeaders.Get(resp.headers, Lower(key))
    case Some(v) => Str(v)
    case None => Null
  }

  function AssertStatus(resp: Response, expected: int): Verdict
  {
    Require(expected == resp.status, StatusMessage(expected, resp.status))
  }

  function AssertBody(m: Matcher, resp: Response, expected: Value): Verdict
  {
    Require(BodyAgrees(m, expected, resp.body), BodyMessage(expected, resp.body))
  }

  /** Only a string has `toLowerCase`; any other key raises a `TypeError`
      before a header is looked up. */
  function AssertHeader(m: Matcher, resp: Response, key: Value, expected: Value): Verdict
  {
    if !key.Str? then Throws
    else
      var actual := HeaderValue(resp, key.s);
      Require(HeaderAgrees(m, expected, actual), HeaderMessage(key.s, expected, actual))
  }

  // ---------------------------------------------------------------------
  // The four call shapes

  /** The call shapes `assert` accepts, as a tagged union. */
  datatype Call =
    | StatusOnly(status: int)
    | BodyOnly(body: Value)
    | StatusAndBody(status: int, body: Value)
    | Header(key: Value, value: Value)

  /** The shape an argument list has, if it has one of the four. */
  function Classify(args: seq<Value>): (c: Option<Call>)
    ensures c.None? <==> |args| != 1 && |args| != 2
    ensures c.Some? && c.value.StatusOnly? ==> args == [Num(c.value.status)]
    ensures c.Some? && c.value.BodyOnly? ==> args == [c.value.body] && !c.value.body.Num?
    ensures c.Some? && c.value.StatusAndBody? ==> args == [Num(c.value.status), c.value.body]
    ensures c.Some? && c.value.Header? ==> args == [c.value.key, c.value.value] && !c.value.key.Num?
  {
    if |args| == 1 then
      if args[0].Num? then Some(StatusOnly(args[0].n)) else Some(BodyOnly(args[0]))
    else if |args| == 2 then
      if args[0].Num? then Some(StatusAndBody(args[0].n, args[1])) else Some(Header(args[0], args[1]))
    else None
  }

  /** A body-only or header call whose first argument is a number would be
      read as a status check instead. */
  predicate Unambiguous(c: Call)
  {
    match c
    case BodyOnly(b) => !b.Num?
    case Header(k, _) => !k.Num?
    case _ => true
  }

  /** The argument list a caller writes for a call shape. */
  function Arguments(c: Call): seq<Value>
  {
    match c
    case StatusOnly(s) => [Num(s)]
    case BodyOnly(b) => [b]
    case StatusAndBody(s, b) => [Num(s), b]
    case Header(k, v) => [k, v]
  }

  /** Classifying is the inverse of writing the arguments: each shape is
      recognised from its arguments, and each list of one or two arguments is
      the list of the shape it is recognised as. */
  lemma ClassifyRoundTrip(c: Call, args: seq<Value>)
    ensures Unambiguous(c) ==> Classify(Arguments(c)) == Some(c)
    ensures Classify(args).Some? ==> Arguments(Classify(args).value) == args && Unambiguous(Classify(args).value)
  {
  }

  /** What one shape checks: the helpers run in the source's order. */
  function Check(m: Matcher, resp: Response, c: Call): Verdict
  {
    match c
    case StatusOnly(s) => AssertStatus(resp, s)
    case BodyOnly(b) => AssertBody(m, resp, b)
    case StatusAndBody(s, b) => AndThen(AssertStatus(resp, s), AssertBody(m, resp, b))
    case Header(k, v) => AssertHeader(m, resp, k, v)
  }

  /** `response.assert(...args)`. */
  function Assert(m: Matcher, resp: Response, args: seq<Value>): (o: Outcome<Response>)
    // Arity: one or two arguments, otherwise the usage error.
    ensures o.UsageError? <==> |args| != 1 && |args| != 2
    ensures o.UsageError? ==> o.message == UsageMessage
    // A passing call returns the response itself, for chaining.
    ensures o.Pass? ==> o.response == resp
    // Only a header check on a key that is not a string raises a TypeError.
    ensures o.TypeError? <==> |args| == 2 && !args[0].Num? && !args[0].Str?
    // A single number: the status alone.
    ensures |args| == 1 && args[0].Num? ==>
      && (o.Pass? <==> args[0].n == resp.status)
      && (!o.Pass? ==> o == Fail(StatusMessage(args[0].n, resp.status)))
    // A single other value: the body alone.
    ensures |args| == 1 && !args[0].Num? ==>
      && (o.Pass? <==> BodyAgrees(m, args[0], resp.body))
      && (!o.Pass? ==> o == Fail(BodyMessage(args[0], resp.body)))
    // A number then a value: the status first, then the body.
    ensures |args| == 2 && args[0].Num? ==>
      && (o.Pass? <==> args[0].n == resp.status && BodyAgrees(m, args[1], resp.body))
      && (args[0].n != resp.status ==> o == Fail(StatusMessage(args[0].n, resp.status)))
      && (args[0].n == resp.status && !o.Pass? ==> o == Fail(BodyMessage(args[1], resp.body)))
    // A string then a value: the header under the lower-cased key.
    ensures |args| == 2 && args[0].Str? ==>
      && (o.Pass? <==> HeaderAgrees(m, args[1], HeaderValue(resp, args[0].s)))
      && (!o.Pass? ==> o == Fail(HeaderMessage(args[0].s, args[1], HeaderValue(resp, args[0].s))))
  {
    match Classify(args)
    case None => UsageError(UsageMessage)
    case Some(c) => Finish(Check(m, resp, c), resp)
  }

  // ---------------------------------------------------------------------
  // Properties

  /** A body-only check never consults the status or the headers: two
      responses with the same body reach the same verdict. */
  lemma BodyCheckIgnoresStatusAndHeaders(m: Matcher, r1: Response, r2: Response, expected: Value)
    requires r1.body == r2.body
    requires !expected.Num?
    ensures SameVerdict(Assert(m, r1, [expected]), Assert(m, r2, [expected]))
  {
  }

  /** A status mismatch is reported before the body is compared, whatever
      the expected body is. */
  lemma StatusMismatchHidesBody(m: Matcher, resp: Response, status: int, b1: Value, b2: Value)
    requires status != resp.status
    ensures Assert(m, resp, [Num(status), b1]) == Assert(m, resp, [Num(status), b2])
    ensures Assert(m, resp, [Num(status), b1]) == Fail(StatusMessage(status, resp.status))
  {
  }

  /** The header key is looked up lower-cased, so its letter case decides
      only how the message spells it. */
  lemma HeaderKeyCaseIrrelevant(m: Matcher, resp: Response, k1: string, k2: string, expected: Value)
    requires Lower(k1) == Lower(k2)
    ensures Assert(m, resp, [Str(k1), expected]).Pass? <==> Assert(m, resp, [Str(k2), expected]).Pass?
  {
    LowerIdempotent(k1);
    LowerIdempotent(k2);
  }

  /** An absent header reads as `null`: a literal check fails with the
      ordinary mismatch message against `null` unless the expected value is
      itself `null`, and there is no separate missing-header error. */
  lemma AbsentHeaderIsNull(m: Matcher, resp: Response, key: string, expected: Value)
    requires FetchHeaders.Get(resp.headers, Lower(key)).None?
    requires !expected.Regex?
    ensures expected == Null ==> Assert(m, resp, [Str(key), expected]) == Pass(resp)
    ensures expected != Null ==>
      Assert(m, resp, [Str(key), expected])
      == Fail("expected " + Quote(key) + " of " + Render(expected) + ", got null")
  {
    HeaderMessageText(key, expected, Null);
  }

  /** A pattern on the body is matched against the body converted to a
      string; a miss reports the rendered body and the pattern. */
  lemma PatternBodyCheck(m: Matcher, resp: Response, p: Pattern)
    ensures Assert(m, resp, [Regex(p)]).Pass? <==> m(p, ToString(resp.body))
    ensures !m(p, ToString(resp.body)) ==>
      Assert(m, resp, [Regex(p)]) == Fail("expected " + Render(resp.body) + " to match " + PatternText(p))
  {
    BodyMessageText(Regex(p), resp.body);
  }

  /** With the constructor's default status, `assert(200)` passes and
      `assert(404)` fails with `expected 404, got 200`. */
  lemma DefaultStatusExample(m: Matcher, headers: HeadersInit, body: Value)
    ensures Assert(m, Construct(Init(None, headers, body)), [Num(200)]).Pass?
    ensures Assert(m, Construct(Init(None, headers, body)), [Num(404)]) == Fail("expected 404, got 200")
  {
    StatusMessageExample();
  }

  /** Zero and three arguments are usage errors, not failed assertions. */
  lemma ArityExamples(m: Matcher, resp: Response, a: Value, b: Value, c: Value)
    ensures Assert(m, resp, []) == UsageError("Response#assert accepts one or two arguments")
    ensures Assert(m, resp, [a, b, c]) == UsageError("Response#assert accepts one or two arguments")
  {
  }
}
